=== FILE: README.md ===
# Mythic-Alchemy battle engine in Dafny

This project models the round engine of the Mythic-Alchemy card game, a
pykraken game in which the player fuses two hand cards on a fusion table and
plays the result against a bot's card. The model covers these parts:

- **Timeline sequencer** (`sequencer.dfy`, `sequencer_props.dfy`). An
  ordered list of (callbacks, duration) frames. A clock is advanced by each
  frame's elapsed time and clamped at the total. The active frame is found
  from prefix-sum start times. Callbacks fire when the active index changes.
  Callbacks are opaque tags, and an update reports which frame fired.
- **Battle screen** (`battle.dfy`, `battle_input.dfy`, `battle_round.dfy`).
  One immutable record holds the healths, decks and hands, the two fusion
  slots, the dragged card, the shake phase and clock, the once-per-round
  flags, the consumed-card count and the current screen. The pieces are:
  - `play_card`;
  - each timeline callback, as a pure transition;
  - the per-frame `update` gate;
  - mouse press and release handling;
  - the shake clock and the shake falloff.
- **Player, Bot, FusionTable, CardAnimator, Card, StateEnum**
  (`player.dfy`, `bot.dfy`, `fusion_table.dfy`, `card_animator.dfy`,
  `cards.dfy`, `enums.dfy`). Stack draws, hand layout, what the table and the
  hand draw, and the hover animator.

Modelling choices:

- Time is `real`, which idealises Python floats.
- The frame's elapsed time, the mouse tests and the fused card the table
  offers are parameters.
- `list.remove` and `in` act on the first field-equal card, as they do on a
  Python dataclass. A `remove` that would raise `ValueError` is a `Failure`
  (or `None`) result.

One update fires only the frame that holds the new time, so frames an
update jumps over never fire, however many there are.
`SequencerProps.SkippedFramesNeverFire` states this, and
`BattleRounds.LagSpikeSparesBot` shows the consequence: after a one-second
frame, the player's attack never happens. Every frame is guaranteed to
fire when each frame time is shorter than every frame but the last
(`SequencerProps.RunFiresConsecutively`).

## Model

| member | source | states |
|---|---|---|
| Sequencers.StartsFrom | core/sequencer.py:20-26 | start time i is the starting clock plus the durations of the frames before i, one entry per frame |
| Sequencers.New | core/sequencer.py:11-18 | a new sequencer is valid: clock 0, not done, sentinel index -1; total is the sum of the durations and start i is the sum of the durations before i |
| Sequencers.ScanFinds | core/sequencer.py:33-39 | the scan from frame i returns the first frame from i on whose span holds t; when none does, it returns the last frame |
| Sequencers.FindFrame | core/sequencer.py:28-39 | the result is -1 exactly when there are no frames; at or past the total it is the last frame |
| Sequencers.FindFrameFinds | core/sequencer.py:28-39 | before the total, the frame found is the first one spanning t; when none spans t it is the last frame |
| Sequencers.Reset | core/sequencer.py:41-44 | a reset keeps the frames and validity, and puts the clock at 0, done off and the index at the sentinel |
| Sequencers.Update | core/sequencer.py:46-64 | once done, nothing changes and nothing fires; done is set exactly when time plus dt reaches the total; otherwise the clock advances by dt; the clock never passes the total; a frame fires exactly when the active index changes, and the frame fired is the new index |
| Sequencers.FiredActions | core/sequencer.py:60-64 | an update that fires no frame runs no callback |
| SequencerProps.FrameEnd | core/sequencer.py:20-26 | each frame ends where the next starts, and the last ends at the total |
| SequencerProps.CoverExists | core/sequencer.py:28-39 | every time in [0, total) lies in the span of some frame |
| SequencerProps.CoverUnique | core/sequencer.py:34-37 | with non-negative durations no two frames span the same time |
| SequencerProps.FindFrameSpans | core/sequencer.py:28-39 | before the total, the frame found is the unique frame whose span holds the time |
| SequencerProps.FindFrameMonotone | core/sequencer.py:28-39 | a later time never maps to an earlier frame |
| SequencerProps.NewIsClocked | core/sequencer.py:11-18 | with non-negative durations a new sequencer's clock lies in [0, total] |
| SequencerProps.UpdateKeepsClock | core/sequencer.py:46-55 | a forward update keeps the clock in [0, total] and never moves it back |
| SequencerProps.IndexNeverDecreases | core/sequencer.py:58-64 | a forward update never lowers the active index, and any frame it fires lies after the previously active one |
| SequencerProps.FiresSpanningFrame | core/sequencer.py:58-64 | the frame fired is the one spanning the new time, or the last frame on the update that finishes the timeline |
| SequencerProps.ZeroFrameFiresOnlyLast | core/sequencer.py:30-37 | a zero-length frame fires only as the last frame, on the update that sets done |
| SequencerProps.EmptyTimelineFiresNothing | core/sequencer.py:46-64 | with no frames, the first update finishes the timeline and fires nothing |
| SequencerProps.ResetRefires | core/sequencer.py:41-64 | after a reset the next update fires a frame even with no elapsed time; with dt 0 it is frame 0 when that frame has a length |
| SequencerProps.RunFiresIncreasing | core/sequencer.py:58-64 | across any forward run, frames fire in strictly increasing order, so each fires at most once per cycle, and only frames after the one active at the start |
| SequencerProps.SkippedFramesNeverFire | core/sequencer.py:58-64 | frames jumped over by one long update never fire later in the same cycle |
| SequencerProps.RunWhenDone | core/sequencer.py:46-48 | once done, any further updates change nothing and fire nothing |
| SequencerProps.RunReachesEnd | core/sequencer.py:46-58 | forward updates whose times add up to the remaining time finish the timeline with the last frame active |
| SequencerProps.ShortStepAdvancesByOne | core/sequencer.py:28-39 | an update shorter than every frame but the last advances the active index by at most one |
| SequencerProps.RunFiresConsecutively | core/sequencer.py:46-64 | when every update is that short, the frames fired are exactly those after the initially active one, up to the finally active one, in order |
| Cards.RemoveFirst | states/battle_state.py:248-255 | `list.remove` fails exactly when no equal card is present; otherwise it drops the first equal card, leaving the multiset less that one card |
| Cards.MoveTop | core/player.py:13-16 | a pop-and-append moves the deck's last card to the end of the hand |
| Cards.MoveTopKeepsPool | core/bot.py:23-24 | moving the top card neither creates nor loses a card of deck and hand together |
| Players.New | core/player.py:8-11 | a new player has the given health, an empty hand, and the loaded deck as its whole pool |
| Players.Draw | core/player.py:13-16 | a draw moves the deck's last card to the end of the hand and keeps health; an empty deck changes nothing |
| Players.DrawKeepsPool | core/player.py:13-16 | a draw keeps deck and hand together the same multiset |
| Players.DrawManyDeck | core/player.py:13-16 | n draws remove the top min(n, deck size) cards from the deck |
| Players.DrawManyHand | core/player.py:13-16 | n draws append those cards to the hand in popping order, top card first |
| Players.DrawManyKeepsPool | core/player.py:13-16 | any number of draws keeps health and the multiset of deck and hand |
| Players.DrawManyDrew | core/player.py:13-16 | n draws move the top min(n, deck size) cards to the hand in popping order, the deck keeping the rest in order, with health and the card pool kept |
| Players.ToDst | core/player.py:18-24 | every hand rectangle has the card size and sits 50 above the bottom of the screen |
| Players.HandSpacing | core/player.py:18-24 | neighbouring hand positions are exactly one card width apart on the same row |
| Players.HandCentred | core/player.py:19-21 | the gap left of the first card equals the gap right of the last |
| Players.DistinctPositions | core/player.py:18-24 | distinct hand indices get distinct rectangles when cards have a width |
| Players.RenderHand | core/player.py:26-34 | every hand card not sitting in a slot is drawn at its own hand position, and only such cards are drawn |
| Players.OccupiedLeavesGap | core/player.py:26-34 | a card sitting in a slot leaves its position empty: nothing is drawn there |
| Bots.New | core/bot.py:8-16 | a new bot has health 30, the loaded deck, an empty hand and no played card, and plays from the top centre, 40 below the top edge |
| Bots.DrawCard | core/bot.py:18-26 | on a non-empty deck the top card moves to the hand and becomes the played card; on an empty deck the played card is cleared and nothing else changes |
| Bots.DrawToHand | core/bot.py:28-34 | the same move, but the played card is left alone; an empty deck changes nothing |
| Bots.DrawsKeepPool | core/bot.py:18-34 | both draws keep deck and hand together the same multiset and count |
| Bots.DrawsAgree | core/bot.py:18-34 | the two draws move the same card and differ only in the played card |
| FusionTables.New | core/fusion_table.py:7-22 | all slots empty; the input slots and the result slot are centred on the middle row, the right input at the screen centre, neighbours one card width plus 60 apart, in left-to-right order |
| FusionTables.Render | core/fusion_table.py:24-48 | the three backgrounds come first; an input card is drawn exactly when its slot is filled; the result is drawn exactly when both input slots are filled; nothing else is drawn, so each filled slot and the result are drawn once |
| CardAnimators.New | core/card_animator.py:7-11 | rotation 0, scale 1.0, progress 0 and speed 5, so progress starts in [0, 1] |
| CardAnimators.OnEnter | core/card_animator.py:13-14 | entering sets the hover scale 1.1 and changes nothing else |
| CardAnimators.OnExit | core/card_animator.py:16-17 | leaving sets the rest scale 1.0 and changes nothing else |
| CardAnimators.EnterExitIdempotent | core/card_animator.py:13-17 | entering or leaving twice is the same as once |
| CardAnimators.Update | core/card_animator.py:19-28 | progress advances by dt times speed, clamped at 1; the scale is the hover scale exactly when the mouse overlaps; rotation and speed are untouched |
| CardAnimators.UpdateMonotone | core/card_animator.py:19-22 | with forward time, progress never goes back and stays in [0, 1] |
| CardAnimators.AnimateInvariant | core/card_animator.py:19-28 | over any run of forward frames, progress stays in [0, 1] and never decreases, rotation never changes, and the scale reflects only the last mouse test |
| Battles.RoundFrames | states/battle_state.py:234-245 | the round timeline has seven frames with one callback each, in round order; every frame but the zero-length last lasts at least one shake |
| Battles.New | states/battle_state.py:21-91 | a new battle screen: player health 20, bot health 30, empty hands, loaded decks, empty slots, nothing dragged or played, not battling, shake idle with both hit flags clear |
| Battles.Damage | states/battle_state.py:320 | damage is never negative, at least attack minus defense, and either 0 or exactly that difference |
| Battles.StartShake | states/battle_state.py:315-328 | the phase starts with a fresh shake clock; the side whose phase it is, if it has not hit this round and both cards are in play, deals its damage once and is marked done; otherwise no health changes; health never rises |
| Battles.RefillCount | states/battle_state.py:370 | the refill draws nothing when no card was consumed, exactly the count for 1 or 2 cards, and never more than 2 |
| Battles.RefillHand | states/battle_state.py:366-373 | the table is shown again and the player draws that many cards: the hand gains the deck's top cards in popping order, the deck keeps the rest in order, health and the card pool are kept; nothing else changes |
| Battles.RemoveIfPresent | states/battle_state.py:379-382 | a card the hand holds loses its first equal occurrence, the other cards keeping their order; otherwise the hand is unchanged |
| Battles.Verdict | states/battle_state.py:392-413 | both sides out of health is a stalemate, then defeat, then victory; with both alive, either side without a card in deck or hand is a stalemate, and otherwise the screen stays |
| Battles.VerdictContinues | states/battle_state.py:392-413 | the screen stays in battle exactly when both sides have health and cards left |
| Battles.VerdictIdempotent | states/battle_state.py:392-413 | judging a settled verdict again changes nothing |
| Battles.CloseRound | states/battle_state.py:375-413 | shaking ends, each played card leaves the hand holding it at its first occurrence with the rest in order, both references are cleared, healths and decks are kept, and the screen is the verdict on the result |
| Battles.ApplyAction | states/battle_state.py:333-413 | no callback touches the timeline, the battling flag, the drag or the slots, and none raises a health; the travel and hide callbacks hide the table and the show callback shows it |
| Battles.ApplyAll | core/sequencer.py:63-64 | running a frame's callbacks in order keeps the same things and never raises a health |
| Battles.TakeSlot | states/battle_state.py:248-255 | an empty slot leaves the hand alone; a filled slot's card leaves the hand at its first occurrence, the rest in order, failing exactly when the hand does not hold it |
| Battles.TakeSlots | states/battle_state.py:248-255 | the left slot's card is removed, then the right's from what is left; this succeeds exactly when the hand holds both, takes exactly those two out of the multiset, and a failure names a slot card |
| Battles.TakeBothSlots | states/battle_state.py:248-255 | removing the left slot's card and then the right's succeeds exactly when the hand holds both slot cards |
| Battles.TakenTwice | states/battle_state.py:248-255 | two successful removals take exactly the two slot cards out of the hand's multiset |
| Battles.BeginRound | states/battle_state.py:185-246 | the bot draws its played card; the shake state, hit flags and exit flags start afresh; a new seven-frame timeline is built and battling starts |
| Battles.PlayCard | states/battle_state.py:185-255 | without a fused card only the played reference is cleared; otherwise the round begins, the consumed count is the number of filled slots, both slots are emptied and the hand becomes the left-then-right removal of their cards, failing exactly when the hand lacks one of them |
| Battles.Advance | states/battle_state.py:171-174 | a tick of a running round is one sequencer update; battling stops once the timeline is done; no health rises; the drag and slots are untouched |
| Battles.AdvanceShakeTime | states/battle_state.py:310-313 | the shake clock advances only in the player and bot phases; nothing else changes |
| Battles.Tick | states/battle_state.py:166-174 | one frame keeps the state well formed; it fails exactly when a click with no round running starts a play that raises, with that play's error |
| Battles.Falloff | states/battle_state.py:305 | the falloff is never negative, at most 1 for non-negative elapsed time, drops linearly to 0 over the shake, and stays 0 after it |
| Battles.ShakeOffset | states/battle_state.py:300-308 | a card is displaced only during its own shake phase, by the wave scaled by the falloff, and not at all once the shake has run out |
| BattleInput.FirstGrab | states/battle_state.py:104-111 | the grabbed hand card is the first that the mouse grabs, in hand order; none is grabbed when no card is |
| BattleInput.MouseDown | states/battle_state.py:102-129 | a press drags the first grabbed hand card; failing that, a filled left slot under the mouse gives its card up and empties; failing that, the right slot does; otherwise nothing changes; only the drag and the slots ever change |
| BattleInput.MouseDownConserves | states/battle_state.py:113-129 | a press from a slot moves that card into the drag, without creating or losing a card |
| BattleInput.Place | states/battle_state.py:147-161 | the dragged card goes to the chosen slot and the drag ends; whatever sat there is sent back to the hand first |
| BattleInput.MouseUp | states/battle_state.py:131-164 | without a dragged card nothing happens; a card dropped over a slot goes to the strictly nearer slot, with ties going right; dropped elsewhere it returns to the hand; the drag always ends |
| BattleInput.MouseUpConserves | states/battle_state.py:131-164 | a release neither loses nor duplicates a card across the slots, the drag and the cards sent back to the hand |
| BattleInput.HandleEvent | states/battle_state.py:100-164 | a left press is handled as `MouseDown` and a left release as `MouseUp`; other events are ignored; only the drag and the slots ever change |
| BattleInput.DropThenPickUp | states/battle_state.py:113-153 | dropping a card into the left slot and pressing that slot again picks the same card back up |
| BattleInput.PickUpThenDrop | states/battle_state.py:113-153 | lifting the left slot's card and dropping it straight back restores the state |
| BattleRounds.RoundSchedule | states/battle_state.py:234-245 | the round's frames start at 0, 0.65, 1.0, 1.35, 1.7, 2.25 and 3.05 seconds, and the round lasts 3.05 seconds |
| BattleRounds.AllFramesRunAllActions | states/battle_state.py:237-245 | firing frames 0 to 6 runs the seven callbacks once each, in order |
| BattleRounds.ShortFramesFireEveryFrame | states/battle_state.py:237-245 | with frame times under one shake and lasting the whole round, all seven frames fire exactly once, in order, and the timeline ends |
| BattleRounds.ShortFramesRunEveryAction | states/battle_state.py:237-245 | under those frame times, every callback of the round runs once, in order |
| BattleRounds.LagSpikeSkipsPlayerShake | states/battle_state.py:237-245 | a one-second frame right after the first update jumps from the travel frame to the gap frame, and the player's shake frame never fires |
| BattleRounds.ApplyActionAgrees | states/battle_state.py:333-413 | a callback's effect does not depend on the timeline, the battling flag or the shake clock |
| BattleRounds.ApplyAllAgrees | states/battle_state.py:333-413 | the same holds for any run of callbacks |
| BattleRounds.AdvanceAgrees | states/battle_state.py:171-174 | a tick's callbacks act as if the timeline had not moved |
| BattleRounds.TickFollowsUpdate | states/battle_state.py:166-174 | one tick of a running round is one sequencer update followed by the callbacks of the frame it fired, after which the shake clock advances by the frame time if a card is shaking |
| BattleRounds.ApplyActionShakeClock | states/battle_state.py:315-347 | the callbacks that open a shake phase or the gap restart the shake clock and every other callback keeps it |
| BattleRounds.ApplyAllShakeClock | states/battle_state.py:315-347 | a callback list leaves the same shake clock on two states that start with the same clock |
| BattleRounds.TicksFollowRun | states/battle_state.py:166-174 | between clicks the game loop runs exactly the callbacks of the frames the sequencer fires, in firing order, and stops battling once the timeline is done |
| BattleRounds.ShakePhases | states/battle_state.py:315-347 | the shakes and the gap start their phase with a fresh clock, the finish ends shaking, and the other callbacks leave the phase alone |
| BattleRounds.RoundEffect | states/battle_state.py:315-413 | from a fresh play with both cards in play, the seven callbacks hit each side exactly once with its opponent's damage, start both exits, return the table, and close with the verdict |
| BattleRounds.PlayerHitsAtMostOnce | states/battle_state.py:319-323 | whatever callbacks run, in any order, the bot loses the player's damage at most once, exactly when the player's hit is marked done |
| BattleRounds.BotHitsAtMostOnce | states/battle_state.py:324-328 | likewise, the player loses the bot's damage at most once per round |
| BattleRounds.ClickStartsRound | states/battle_state.py:168-174 | a click while no round runs is the play followed by an ordinary tick, and the round is then running |
| BattleRounds.NoPlayWhileBattling | states/battle_state.py:168-169 | a click while a round runs is ignored, whatever the table offers |
| BattleRounds.TickIdle | states/battle_state.py:166-174 | with no round running and no click, a frame changes nothing but the shake clock |
| BattleRounds.ClickWithoutFusion | states/battle_state.py:166-188 | a click with no fused card on offer starts no round: it clears the played card and the frame is otherwise idle |
| BattleRounds.TicksNeverHeal | states/battle_state.py:166-174 | ticking never raises either side's health |
| BattleRounds.ShortRoundResolves | states/battle_state.py:185-255 | a clicked round, at frame times under one shake, resolves completely: each card hits once, the played cards are cleared, battling stops, and the screen is the verdict |
| BattleRounds.OnlyPlayerShakeHurtsBot | states/battle_state.py:319-323 | callbacks other than the player's shake never lower the bot's health |
| BattleRounds.LagSpikeSparesBot | states/battle_state.py:237-245 | a round whose second frame takes a whole second never runs the player's attack, so the bot loses no health |

## Left out

- Rendering: textures, fonts, stats panels, the Play button's drawing, `Bot.render_played_card`, and the tween stepping and drawing in `_render_play_sequence`. They are draw calls with no state logic. The shake-clock advance at the end of `_render_play_sequence` is modelled, in `Battles.Tick`.
- Bots.New: `_render_play_sequence` re-anchors `bot.play_rect` to the end of the bot's travel once its animation is done; that write is not modelled, so `playRect` keeps the value `Bots.New` gives it.
- The menu, stale and base screens and `main.py`. They are outside the battle engine.
- Loading and shuffling the decks (`core/deck.py`). It is file I/O and randomness, so the initial decks are parameters.
- The easing tweens of the travel and exit animations, `exp_lerp`, and the sine terms of `_shake_offset`. They are floating-point curves; the shake's oscillation is an input `wave`, and only the falloff is modelled.
- Audio playback and the theme music pause. They have no effect on game state.
- `kn.time.get_delta`, the mouse position and `kn.collision.overlap`. They are foreign calls: the elapsed time is a parameter and the mouse and overlap tests are boolean inputs.
- Card behaviour is abstracted: the card methods `start_drag`, `place_in_slot`, `return_to_hand`, `contains_point` and `update_drag_position`, and `CardLocation`, are not modelled. A reaction lists the calls it makes on cards, and the "rests in the hand and contains the mouse" test is an input.
- The fusion result is abstracted: the fused card is an input, and `fusion_result_card` and any fusion-combination table are not modelled. `hide` and `show` become the `tableShown` flag.
- `texture_index`, which `FusionTable.render` reads but `Card` does not define. A draw names the card itself.
- The `reset()` call inside `play_card`. The sequencer it resets is replaced by a new one a few lines later, before any update.
- Battles.PlayCard: when `list.remove` raises partway, the source has already changed some fields. The `Failure` result drops that partial state.
- The initial one-frame timeline that hides the table. It is built, but nothing runs it, because `update` only advances the sequencer while battling. `HideTable` is modelled as the callback it names.
- Python float rounding. Time and positions are exact `real` values, so sums such as the round's 3.05 seconds are exact.
- FusionTables.Render: the case where both input slots are filled and no result is present is excluded by a precondition. The source dereferences `fusion_result` there without a check, and no line ever assigns it.

=== FILE: battle.dfy ===
/**
 * The battle screen's round engine. `play_card` consumes the fusion-slot
 * cards, has the bot draw, and builds a seven-frame timeline; each frame's
 * action is a pure transition of one record holding everything the round
 * touches. Damage is applied by the two shake actions, guarded by
 * once-per-round flags; the table action refills the hand; the finishing
 * action clears the played cards and picks the next screen.
 */
module Battles {
  import opened Wrappers
  import opened Cards
  import opened Geometry
  import Enums
  import Sq = Sequencers
  import Players
  import Bots
  import FusionTables

  /** Which played card is shaking: "idle", "player", "gap", "bot", "done". */
  datatype ShakePhase = Idle | PlayerShake | Gap | BotShake | Done

  /** The callbacks a timeline frame can name. */
  datatype RoundAction =
    | HideTable
    | StartTravel
    | StartPlayerShake
    | StartGap
    | StartBotShake
    | StartExit
    | ShowTable
    | FinishRound

  const InitialHideDuration: real := 0.8
  const TravelDuration: real := 0.65
  const ShakeDuration: real := 0.35
  const ShakeGapDuration: real := 0.35
  const ExitDuration: real := 0.55
  const TableShowDuration: real := 0.8
  const FinishDuration: real := 0.0

  /** The round's callbacks in timeline order, one per frame. */
  const RoundActions: seq<RoundAction> :=
    [StartTravel, StartPlayerShake, StartGap, StartBotShake, StartExit, ShowTable, FinishRound]

  /** The timeline of one round: travel, player shake, gap, bot shake, exit, table, finish. */
  function RoundFrames(): (fs: seq<Sq.Frame<RoundAction>>)
    ensures |fs| == 7 && Sq.NonNegative(fs)
    ensures forall i :: 0 <= i < |fs| ==> fs[i].actions == [RoundActions[i]]
    ensures fs[|fs| - 1].duration == 0.0
    ensures forall i :: 0 <= i < |fs| - 1 ==> fs[i].duration >= ShakeDuration
  {
    [ Sq.Frame([StartTravel], TravelDuration),
      Sq.Frame([StartPlayerShake], ShakeDuration),
      Sq.Frame([StartGap], ShakeGapDuration),
      Sq.Frame([StartBotShake], ShakeDuration),
      Sq.Frame([StartExit], ExitDuration),
      Sq.Frame([ShowTable], TableShowDuration),
      Sq.Frame([FinishRound], FinishDuration) ]
  }

  /** `list.remove` found no equal card: Python raises `ValueError`. */
  datatype Error = NotInHand(card: Card)

  datatype BattleState = BattleState(
    player: Players.Player,
    bot: Bots.Bot,
    table: FusionTables.FusionTable,
    dragged: Option<Card>,
    battling: bool,
    sequencer: Sq.Sequencer<RoundAction>,
    played: Option<Card>,
    botPlayed: Option<Card>,
    shake: ShakePhase,
    shakeElapsed: real,
    playerAttackDone: bool,
    botAttackDone: bool,
    cardsUsed: int,
    playExitActive: bool,
    botExitActive: bool,
    tableShown: bool,
    screen: Enums.StateEnum)

  /** What every reachable battle state satisfies: its timeline is a well-formed sequencer. */
  ghost predicate Inv(b: BattleState)
  {
    Sq.Valid(b.sequencer)
  }

  /** `BattleState(root)` with both decks already loaded, entered as the current screen. */
  function New(playerDeck: seq<Card>, botDeck: seq<Card>, screenSize: Vec2, cardSize: Vec2): (b: BattleState)
    ensures Inv(b)
    ensures b.player.health == Players.DefaultHealth && b.player.hand == [] && b.player.deck == playerDeck
    ensures b.bot.health == Bots.StartHealth && b.bot.hand == [] && b.bot.deck == botDeck && b.bot.played.None?
    ensures b.table.lhs.None? && b.table.rhs.None? && b.table.result.None?
    ensures b.dragged.None? && !b.battling && b.played.None? && b.botPlayed.None?
    ensures b.shake == Idle && !b.playerAttackDone && !b.botAttackDone && b.cardsUsed == 0
    ensures b.screen == Enums.Battle
  {
    BattleState(
      Players.New(playerDeck, Players.DefaultHealth),
      Bots.New(botDeck, screenSize, cardSize),
      FusionTables.New(screenSize, cardSize),
      None, false,
      Sq.New([Sq.Frame([HideTable], InitialHideDuration)]),
      None, None, Idle, 0.0, false, false, 0, false, false, true,
      Enums.Battle)
  }

  /** `max(0, attack - defense)`: the damage an attacking card deals a defending one. */
  function Damage(attack: int, defense: int): (d: int)
    ensures d >= 0
    ensures d >= attack - defense
    ensures d == 0 || d == attack - defense
  {
    if attack - defense > 0 then attack - defense else 0
  }

  /** Both cards of the round are in play. */
  predicate BothPlayed(b: BattleState)
  {
    b.played.Some? && b.botPlayed.Some?
  }

  /** The player's shake hits the bot now: both cards in play and the player has not hit this round. */
  predicate PlayerHits(b: BattleState, phase: ShakePhase)
  {
    phase == PlayerShake && !b.playerAttackDone && BothPlayed(b)
  }

  /** The bot's shake hits the player now. */
  predicate BotHits(b: BattleState, phase: ShakePhase)
  {
    phase == BotShake && !b.botAttackDone && BothPlayed(b)
  }

  /**
   * `_start_shake_phase(phase)`: the phase starts with a fresh shake clock;
   * the side whose phase it is deals its damage if it has not yet this
   * round, and is then marked as having done so. Nothing else changes.
   */
  function StartShake(b: BattleState, phase: ShakePhase): (r: BattleState)
    ensures r.shake == phase && r.shakeElapsed == 0.0
    ensures PlayerHits(b, phase) ==>
              r.bot.health == b.bot.health - Damage(b.played.value.attack, b.botPlayed.value.defense)
              && r.playerAttackDone
    ensures !PlayerHits(b, phase) ==> r.bot.health == b.bot.health && r.playerAttackDone == b.playerAttackDone
    ensures BotHits(b, phase) ==>
              r.player.health == b.player.health - Damage(b.botPlayed.value.attack, b.played.value.defense)
              && r.botAttackDone
    ensures !BotHits(b, phase) ==> r.player.health == b.player.health && r.botAttackDone == b.botAttackDone
    ensures r.player.health <= b.player.health && r.bot.health <= b.bot.health
    ensures r.player == b.player.(health := r.player.health) && r.bot == b.bot.(health := r.bot.health)
    ensures r.(shake := b.shake, shakeElapsed := b.shakeElapsed, player := b.player, bot := b.bot,
               playerAttackDone := b.playerAttackDone, botAttackDone := b.botAttackDone) == b
  {
    var b1 := b.(shake := phase, shakeElapsed := 0.0);
    if phase == PlayerShake && !b.playerAttackDone && b.played.Some? && b.botPlayed.Some? then
      var dmg := Damage(b.played.value.attack, b.botPlayed.value.defense);
      b1.(bot := b.bot.(health := b.bot.health - dmg), playerAttackDone := true)
    else if phase == BotShake && !b.botAttackDone && b.played.Some? && b.botPlayed.Some? then
      var dmg := Damage(b.botPlayed.value.attack, b.played.value.defense);
      b1.(player := b.player.(health := b.player.health - dmg), botAttackDone := true)
    else b1
  }

  /** The number of cards the refill draws: none when no card was consumed, otherwise `count` clamped to [1, 2]. */
  function RefillCount(used: int): (n: nat)
    ensures n <= 2
    ensures used <= 0 ==> n == 0
    ensures 0 <= used <= 2 ==> n == used
    ensures used >= 2 ==> n == 2
  {
    var capped := if used < 2 then used else 2;
    if used > 0 then (if capped > 1 then capped else 1) else 0
  }

  /**
   * `_seq_show_table`: the table is shown again and the player draws once
   * per card consumed this round, at most twice.
   */
  function RefillHand(b: BattleState): (r: BattleState)
    ensures r.tableShown
    ensures Players.Drew(b.player, r.player, RefillCount(b.cardsUsed))
    ensures r.(tableShown := b.tableShown, player := b.player) == b
  {
    var n := RefillCount(b.cardsUsed);
    var p := Players.DrawMany(b.player, n);
    Players.DrawManyDrew(b.player, n);
    b.(tableShown := true, player := p)
  }

  /** The cards an optional reference names, as a multiset of at most one. */
  function Held(c: Option<Card>): multiset<Card>
  {
    if c.Some? then multiset{c.value} else multiset{}
  }

  /** `if c is not None and c in hand: hand.remove(c)`. */
  function RemoveIfPresent(hand: seq<Card>, c: Option<Card>): (r: seq<Card>)
    ensures multiset(r) == multiset(hand) - Held(c)
    ensures (c.Some? && c.value in hand) <==> |r| == |hand| - 1
    ensures !(c.Some? && c.value in hand) ==> r == hand
    ensures c.Some? && c.value in hand ==> r == hand[..FirstIndex(hand, c.value)] + hand[FirstIndex(hand, c.value) + 1..]
  {
    if c.Some? && c.value in hand then RemoveFirst(hand, c.value).value else hand
  }

  /**
   * The screen after a round, by precedence: both sides out of health is a
   * stalemate, then the player's defeat, then the player's victory, then a
   * stalemate if either side has no card left in deck or hand; otherwise the
   * screen stays as it is.
   */
  function Verdict(p: Players.Player, bot: Bots.Bot, current: Enums.StateEnum): (r: Enums.StateEnum)
    ensures p.health <= 0 && bot.health <= 0 ==> r == Enums.Stale
    ensures p.health <= 0 < bot.health ==> r == Enums.Lose
    ensures bot.health <= 0 < p.health ==> r == Enums.Win
    ensures p.health > 0 && bot.health > 0 && (|p.deck| + |p.hand| == 0 || |bot.deck| + |bot.hand| == 0) ==>
              r == Enums.Stale
    ensures p.health > 0 && bot.health > 0 && |p.deck| + |p.hand| > 0 && |bot.deck| + |bot.hand| > 0 ==>
              r == current
    ensures r != current ==> r == Enums.Stale || r == Enums.Lose || r == Enums.Win
  {
    if p.health <= 0 && bot.health <= 0 then Enums.Stale
    else if p.health <= 0 then Enums.Lose
    else if bot.health <= 0 then Enums.Win
    else if |p.deck| + |p.hand| == 0 || |bot.deck| + |bot.hand| == 0 then Enums.Stale
    else current
  }

  /**
   * From the battle screen, the battle goes on exactly when both sides are
   * alive and both still hold a card in deck or hand.
   */
  lemma VerdictContinues(p: Players.Player, bot: Bots.Bot)
    ensures Verdict(p, bot, Enums.Battle) == Enums.Battle
            <==> p.health > 0 && bot.health > 0 && |p.deck| + |p.hand| > 0 && |bot.deck| + |bot.hand| > 0
  {
  }

  /** Deciding again on the same sides gives the same screen. */
  lemma VerdictIdempotent(p: Players.Player, bot: Bots.Bot, current: Enums.StateEnum)
    ensures Verdict(p, bot, Verdict(p, bot, current)) == Verdict(p, bot, current)
  {
  }

  /**
   * `_seq_finish_round`: shaking is over, the played cards leave the hands
   * that still hold them, both references are cleared, and the next screen
   * is decided on the resulting healths and card counts.
   */
  function CloseRound(b: BattleState): (r: BattleState)
    ensures r.shake == Done && r.played.None? && r.botPlayed.None?
    ensures multiset(r.player.hand) == multiset(b.player.hand) - Held(b.played)
    ensures multiset(r.bot.hand) == multiset(b.bot.hand) - Held(b.botPlayed)
    ensures r.player.hand == RemoveIfPresent(b.player.hand, b.played)
    ensures r.bot.hand == RemoveIfPresent(b.bot.hand, b.botPlayed)
    ensures r.player.health == b.player.health && r.bot.health == b.bot.health
    ensures r.player.deck == b.player.deck && r.bot.deck == b.bot.deck
    ensures r.screen == Verdict(r.player, r.bot, b.screen)
    ensures r.(shake := b.shake, played := b.played, botPlayed := b.botPlayed, screen := b.screen,
               player := b.player, bot := b.bot) == b
  {
    var player := b.player.(hand := RemoveIfPresent(b.player.hand, b.played));
    var bot := b.bot.(hand := RemoveIfPresent(b.bot.hand, b.botPlayed));
    b.(shake := Done, player := player, bot := bot, played := None, botPlayed := None,
       screen := Verdict(player, bot, b.screen))
  }

  /** One timeline callback. */
  function ApplyAction(b: BattleState, a: RoundAction): (r: BattleState)
    ensures r.sequencer == b.sequencer && r.battling == b.battling
    ensures r.dragged == b.dragged && r.table == b.table
    ensures r.player.health <= b.player.health && r.bot.health <= b.bot.health
    ensures a == HideTable || a == StartTravel ==> !r.tableShown
    ensures a == ShowTable ==> r.tableShown
  {
    match a
    case HideTable => b.(tableShown := false)
    case StartTravel => b.(tableShown := false)
    case StartPlayerShake => StartShake(b, PlayerShake)
    case StartGap => b.(shake := Gap, shakeElapsed := 0.0)
    case StartBotShake => StartShake(b, BotShake)
    case StartExit =>
      b.(playExitActive := b.playExitActive || b.played.Some?,
         botExitActive := b.botExitActive || b.botPlayed.Some?)
    case ShowTable => RefillHand(b)
    case FinishRound => CloseRound(b)
  }

  /** The callbacks of one frame, in registration order. */
  function ApplyAll(b: BattleState, acts: seq<RoundAction>): (r: BattleState)
    ensures r.sequencer == b.sequencer && r.battling == b.battling
    ensures r.dragged == b.dragged && r.table == b.table
    ensures r.player.health <= b.player.health && r.bot.health <= b.bot.health
    decreases |acts|
  {
    if |acts| == 0 then b else ApplyAll(ApplyAction(b, acts[0]), acts[1..])
  }

  /** `hand.remove(card)` for a slot card, if the slot is filled. */
  function TakeSlot(hand: seq<Card>, slot: Option<Card>): (r: Result<seq<Card>, Error>)
    ensures slot.None? ==> r == Success(hand)
    ensures slot.Some? ==> (r.Success? <==> slot.value in hand)
    ensures r.Failure? ==> r.error == NotInHand(slot.value)
    ensures r.Success? ==> multiset(r.value) == multiset(hand) - Held(slot)
    ensures slot.Some? && r.Success? ==>
              r.value == hand[..FirstIndex(hand, slot.value)] + hand[FirstIndex(hand, slot.value) + 1..]
  {
    match slot
    case None => Success(hand)
    case Some(c) =>
      match RemoveFirst(hand, c)
      case None => Failure(NotInHand(c))
      case Some(h) => Success(h)
  }

  /** The cards sitting in the two fusion slots. */
  function SlotCards(t: FusionTables.FusionTable): multiset<Card>
  {
    Held(t.lhs) + Held(t.rhs)
  }

  lemma TakeBothSlots(hand: seq<Card>, lhs: Option<Card>, rhs: Option<Card>)
    ensures TakeSlot(hand, lhs).Success? && TakeSlot(TakeSlot(hand, lhs).value, rhs).Success?
            <==> Held(lhs) + Held(rhs) <= multiset(hand)
  {
    TakeSlotSucceeds(hand, lhs);
    if TakeSlot(hand, lhs).Success? {
      TakeSlotSucceeds(TakeSlot(hand, lhs).value, rhs);
      SubAfterMinus(multiset(hand), Held(lhs), Held(rhs));
    }
  }

  /** Removing a slot card succeeds exactly when the hand holds it. */
  lemma TakeSlotSucceeds(hand: seq<Card>, slot: Option<Card>)
    ensures TakeSlot(hand, slot).Success? <==> Held(slot) <= multiset(hand)
  {
    if slot.Some? {
      assert slot.value in hand <==> slot.value in multiset(hand);
    }
  }

  /** Once `x` is taken out of `a`, `y` fits in the rest exactly when `x` and `y` together fit in `a`. */
  lemma SubAfterMinus(a: multiset<Card>, x: multiset<Card>, y: multiset<Card>)
    requires x <= a
    ensures y <= a - x <==> x + y <= a
  {
    if y <= a - x {
      forall c | c in x + y
        ensures (x + y)[c] <= a[c]
      {
        assert (a - x)[c] == a[c] - x[c];
      }
    }
    if x + y <= a {
      forall c | c in y
        ensures y[c] <= (a - x)[c]
      {
        assert (x + y)[c] == x[c] + y[c];
      }
    }
  }

  lemma MinusTwice(a: multiset<Card>, x: multiset<Card>, y: multiset<Card>)
    ensures a - x - y == a - (x + y)
  {
    forall c | true
      ensures (a - x - y)[c] == (a - (x + y))[c]
    {
    }
  }

  /**
   * Empties both fusion slots out of the hand, left slot first; fails on
   * the first slot card the hand does not hold.
   */
  function TakeSlots(hand: seq<Card>, t: FusionTables.FusionTable): (r: Result<seq<Card>, Error>)
    ensures r.Success? <==> SlotCards(t) <= multiset(hand)
    ensures r.Success? ==> multiset(r.value) == multiset(hand) - SlotCards(t)
    ensures r.Failure? ==> r.error.card in SlotCards(t)
    ensures r.Success? ==>
              TakeSlot(hand, t.lhs).Success? && r.value == TakeSlot(TakeSlot(hand, t.lhs).value, t.rhs).value
  {
    TakeSlotsFacts(hand, t);
    LeftThenRight(hand, t)
  }

  /** The left slot's removal, then the right slot's on what is left. */
  function LeftThenRight(hand: seq<Card>, t: FusionTables.FusionTable): Result<seq<Card>, Error>
  {
    match TakeSlot(hand, t.lhs)
    case Failure(e) => Failure(e)
    case Success(h) => TakeSlot(h, t.rhs)
  }

  /** What the left-then-right removal does to the hand, proved apart from `TakeSlots` itself. */
  lemma TakeSlotsFacts(hand: seq<Card>, t: FusionTables.FusionTable)
    ensures LeftThenRight(hand, t).Success? <==> SlotCards(t) <= multiset(hand)
    ensures LeftThenRight(hand, t).Success? ==> multiset(LeftThenRight(hand, t).value) == multiset(hand) - SlotCards(t)
    ensures LeftThenRight(hand, t).Failure? ==> LeftThenRight(hand, t).error.card in SlotCards(t)
  {
    TakeBothSlots(hand, t.lhs, t.rhs);
    TakenTwice(hand, t);
  }

  /** Two successful removals take exactly the two slot cards out of the hand's multiset. */
  lemma TakenTwice(hand: seq<Card>, t: FusionTables.FusionTable)
    ensures TakeSlot(hand, t.lhs).Success? && TakeSlot(TakeSlot(hand, t.lhs).value, t.rhs).Success? ==>
              multiset(TakeSlot(TakeSlot(hand, t.lhs).value, t.rhs).value) == multiset(hand) - SlotCards(t)
  {
    MinusTwice(multiset(hand), Held(t.lhs), Held(t.rhs));
  }

  /**
   * The round set up by a play of `fused`: the bot draws its card, the
   * shake state, the once-per-round flags and the consumed count start
   * afresh, and a new round timeline is built.
   */
  function BeginRound(b: BattleState, fused: Card): (s: BattleState)
    ensures Inv(s)
    ensures s.played == Some(fused) && s.battling
    ensures s.sequencer == Sq.New(RoundFrames()) && !s.sequencer.done && s.sequencer.index == -1
    ensures s.shake == Idle && s.shakeElapsed == 0.0
    ensures !s.playerAttackDone && !s.botAttackDone && !s.playExitActive && !s.botExitActive
    ensures s.bot == Bots.DrawCard(b.bot).bot && s.botPlayed == Bots.DrawCard(b.bot).card
    ensures s.player == b.player && s.table == b.table && s.dragged == b.dragged
    ensures s.screen == b.screen && s.tableShown == b.tableShown
  {
    var drawn := Bots.DrawCard(b.bot);
    b.(played := Some(fused), battling := true, bot := drawn.bot, botPlayed := drawn.card,
       shake := Idle, shakeElapsed := 0.0, playerAttackDone := false, botAttackDone := false,
       cardsUsed := 0, playExitActive := false, botExitActive := false,
       sequencer := Sq.New(RoundFrames()))
  }

  /**
   * `play_card` with the fused card the table offers. Without one, only the
   * played reference is cleared. Otherwise the round begins and each filled
   * slot is emptied and its card removed from the hand, counting the cards
   * consumed; removing a slot card the hand does not hold raises, which is
   * `Failure`.
   */
  function PlayCard(b: BattleState, fused: Option<Card>): (r: Result<BattleState, Error>)
    requires Inv(b)
    ensures r.Success? ==> Inv(r.value)
    ensures fused.None? ==> r == Success(b.(played := None))
    ensures fused.Some? ==> (r.Success? <==> SlotCards(b.table) <= multiset(b.player.hand))
    ensures fused.Some? && r.Success? ==>
              && r.value.cardsUsed == |SlotCards(b.table)|
              && r.value.table == b.table.(lhs := None, rhs := None)
              && multiset(r.value.player.hand) == multiset(b.player.hand) - SlotCards(b.table)
              && r.value.player == b.player.(hand := r.value.player.hand)
              && r.value.player.hand == TakeSlots(b.player.hand, b.table).value
              && r.value == BeginRound(b, fused.value).(player := r.value.player, table := r.value.table,
                                                       cardsUsed := r.value.cardsUsed)
  {
    match fused
    case None => Success(b.(played := None))
    case Some(c) =>
      match TakeSlots(b.player.hand, b.table)
      case Failure(e) => Failure(e)
      case Success(h) =>
        Success(BeginRound(b, c).(player := b.player.(hand := h),
                                  table := b.table.(lhs := None, rhs := None),
                                  cardsUsed := |SlotCards(b.table)|))
  }

  /**
   * One sequencer update while battling: the frame that fires, if any, has
   * its callbacks applied, and battling stops once the timeline is done.
   */
  function Advance(b: BattleState, dt: real): (r: BattleState)
    requires Inv(b)
    ensures Inv(r)
    ensures r.sequencer == Sq.Update(b.sequencer, dt).next
    ensures r.battling == (b.battling && !r.sequencer.done)
    ensures r.player.health <= b.player.health && r.bot.health <= b.bot.health
    ensures r.dragged == b.dragged && r.table == b.table
  {
    var st := Sq.Update(b.sequencer, dt);
    var b1 := ApplyAll(b.(sequencer := st.next), Sq.FiredActions(st));
    if b1.sequencer.done then b1.(battling := false) else b1
  }

  /** `_advance_shake_time(dt)`: the shake clock runs only while a card is shaking. */
  function AdvanceShakeTime(b: BattleState, dt: real): (r: BattleState)
    ensures b.shake == PlayerShake || b.shake == BotShake ==> r.shakeElapsed == b.shakeElapsed + dt
    ensures !(b.shake == PlayerShake || b.shake == BotShake) ==> r == b
    ensures r.(shakeElapsed := b.shakeElapsed) == b
  {
    if b.shake == PlayerShake || b.shake == BotShake then b.(shakeElapsed := b.shakeElapsed + dt) else b
  }

  /**
   * The state part of `update` for one frame of elapsed time `dt`: a click
   * on Play starts a round only when none is running; a running round's
   * timeline advances (in the same frame as the click that started it); the
   * shake clock then advances.
   */
  function Tick(b: BattleState, dt: real, playClicked: bool, fused: Option<Card>): (r: Result<BattleState, Error>)
    requires Inv(b)
    ensures r.Success? ==> Inv(r.value)
    ensures r.Failure? ==> playClicked && !b.battling && fused.Some?
    ensures playClicked && !b.battling && PlayCard(b, fused).Failure? ==> r == Failure(PlayCard(b, fused).error)
  {
    var started := if playClicked && !b.battling then PlayCard(b, fused) else Success(b);
    match started
    case Failure(e) => Failure(e)
    case Success(b1) =>
      var b2 := if b1.battling then Advance(b1, dt) else b1;
      Success(AdvanceShakeTime(b2, dt))
  }

  /** `max(0, 1 - min(1, elapsed / duration))`: how much of the shake amplitude is left. */
  function Falloff(elapsed: real): (f: real)
    ensures 0.0 <= f
    ensures elapsed >= 0.0 ==> f <= 1.0
    ensures elapsed >= ShakeDuration ==> f == 0.0
    ensures 0.0 <= elapsed <= ShakeDuration ==> f == 1.0 - elapsed / ShakeDuration
  {
    var m := if elapsed / ShakeDuration < 1.0 then elapsed / ShakeDuration else 1.0;
    if 1.0 - m > 0.0 then 1.0 - m else 0.0
  }

  /**
   * `_shake_offset(base, owner)`: the card drawn for `owner` is displaced
   * only while its own shake phase is running, by the oscillation `wave`
   * (the sine terms times the amplitude) scaled by the falloff.
   */
  function ShakeOffset(b: BattleState, base: Vec2, owner: ShakePhase, wave: Vec2): (r: Vec2)
    ensures b.shake != owner ==> r == base
    ensures b.shake == owner ==> r == base.Plus(wave.Scaled(Falloff(b.shakeElapsed)))
    ensures b.shake == owner && b.shakeElapsed >= ShakeDuration ==> r == base.Plus(Vec2(0.0, 0.0))
  {
    if b.shake != owner then base else base.Plus(wave.Scaled(Falloff(b.shakeElapsed)))
  }
}

=== FILE: battle_input.dfy ===
/**
 * The battle screen's mouse handling: picking a card up from the hand or
 * from a fusion slot, and dropping it into the nearer slot or back into
 * the hand. The card methods that move sprites (`start_drag`,
 * `place_in_slot`, `return_to_hand`) are abstracted: a reaction lists the
 * calls it makes on cards.
 */
module BattleInput {
  import opened Wrappers
  import opened Cards
  import opened Geometry
  import FusionTables
  import B = Battles

  /** A call the handler makes on a card object. */
  datatype CardCall =
    | StartDrag(card: Card)
    | PlaceInSlot(card: Card, slot: FusionTables.Slot)
    | ReturnToHand(card: Card)

  /**
   * A left-button event as the handler sees it. On a press, `grab[i]` says
   * whether hand card `i` both rests in the hand and contains the mouse,
   * and `overLhs`/`overRhs` whether the mouse is over a slot. On a
   * release, `overSlot` says whether the dragged card's rectangle overlaps
   * either input slot and `dropX` is that rectangle's left edge.
   */
  datatype Event =
    | LeftDown(grab: seq<bool>, overLhs: bool, overRhs: bool)
    | LeftUp(overSlot: bool, dropX: real)
    | Other

  datatype Reaction = Reaction(state: B.BattleState, calls: seq<CardCall>)

  /** The first hand position the mouse grabs; positions past either sequence grab nothing. */
  function FirstGrab(hand: seq<Card>, grab: seq<bool>, from: nat): (r: Option<nat>)
    ensures r.Some? ==> from <= r.value < |hand| && r.value < |grab| && grab[r.value]
    ensures r.Some? ==> forall j :: from <= j < r.value ==> !grab[j]
    ensures r.None? ==> forall j :: from <= j < |hand| && j < |grab| ==> !grab[j]
    decreases |hand| - from
  {
    if from >= |hand| || from >= |grab| then None
    else if grab[from] then Some(from)
    else FirstGrab(hand, grab, from + 1)
  }

  /**
   * A left press: the first grabbed hand card starts dragging; failing
   * that, a filled left slot under the mouse gives up its card to the
   * drag; failing that, the right slot does. At most one of these happens.
   */
  function MouseDown(b: B.BattleState, grab: seq<bool>, overLhs: bool, overRhs: bool): (r: Reaction)
    ensures r.state.player == b.player && r.state.bot == b.bot
    ensures r.state.table == b.table.(lhs := r.state.table.lhs, rhs := r.state.table.rhs)
    ensures r.state == b.(dragged := r.state.dragged, table := r.state.table)
    ensures |r.calls| <= 1
    ensures r.calls == [] ==> r.state == b
    ensures |r.calls| == 1 ==> r.state.dragged.Some? && r.calls[0] == StartDrag(r.state.dragged.value)
    ensures FirstGrab(b.player.hand, grab, 0).Some? ==>
              r.state.dragged == Some(b.player.hand[FirstGrab(b.player.hand, grab, 0).value])
              && r.state.table == b.table
    ensures FirstGrab(b.player.hand, grab, 0).None? && overLhs && b.table.lhs.Some? ==>
              r.state.dragged == b.table.lhs && r.state.table == b.table.(lhs := None)
    ensures FirstGrab(b.player.hand, grab, 0).None? && !(overLhs && b.table.lhs.Some?)
            && overRhs && b.table.rhs.Some? ==>
              r.state.dragged == b.table.rhs && r.state.table == b.table.(rhs := None)
    ensures FirstGrab(b.player.hand, grab, 0).None? && !(overLhs && b.table.lhs.Some?)
            && !(overRhs && b.table.rhs.Some?) ==>
              r == Reaction(b, [])
  {
    match FirstGrab(b.player.hand, grab, 0)
    case Some(i) =>
      var c := b.player.hand[i];
      Reaction(b.(dragged := Some(c)), [StartDrag(c)])
    case None =>
      if overLhs && b.table.lhs.Some? then
        var c := b.table.lhs.value;
        Reaction(b.(dragged := Some(c), table := b.table.(lhs := None)), [StartDrag(c)])
      else if overRhs && b.table.rhs.Some? then
        var c := b.table.rhs.value;
        Reaction(b.(dragged := Some(c), table := b.table.(rhs := None)), [StartDrag(c)])
      else Reaction(b, [])
  }

  /**
   * A press that grabs no hand card moves a slot card into the drag, or
   * changes nothing: no card appears or disappears.
   */
  lemma MouseDownConserves(b: B.BattleState, grab: seq<bool>, overLhs: bool, overRhs: bool)
    requires FirstGrab(b.player.hand, grab, 0).None?
    ensures var r := MouseDown(b, grab, overLhs, overRhs);
            B.SlotCards(r.state.table) + B.Held(r.state.dragged)
            == B.SlotCards(b.table) + (if r.calls == [] then B.Held(b.dragged) else multiset{})
  {
  }

  /** The cards a reaction sends back to the hand. */
  function Returned(calls: seq<CardCall>): (m: multiset<Card>)
    ensures |m| <= |calls|
  {
    if |calls| == 0 then multiset{}
    else (if calls[0].ReturnToHand? then multiset{calls[0].card} else multiset{}) + Returned(calls[1..])
  }

  /** The dragged card lands in the left slot only when strictly nearer to it; a tie goes right. */
  predicate NearerLhs(t: FusionTables.FusionTable, dropX: real)
  {
    Abs(dropX - t.lhsRect.x) < Abs(dropX - t.rhsRect.x)
  }

  /** Puts `d` in `slot`, returning whatever sat there to the hand first. */
  function Place(b: B.BattleState, d: Card, slot: FusionTables.Slot): (r: Reaction)
    requires slot != FusionTables.Result
    ensures slot == FusionTables.Lhs ==> r.state == b.(dragged := None, table := b.table.(lhs := Some(d)))
    ensures slot == FusionTables.Rhs ==> r.state == b.(dragged := None, table := b.table.(rhs := Some(d)))
    ensures |r.calls| >= 1 && r.calls[|r.calls| - 1] == PlaceInSlot(d, slot)
    ensures Returned(r.calls) == B.Held(if slot == FusionTables.Lhs then b.table.lhs else b.table.rhs)
  {
    var occupant := if slot == FusionTables.Lhs then b.table.lhs else b.table.rhs;
    var back := if occupant.Some? then [ReturnToHand(occupant.value)] else [];
    var table := if slot == FusionTables.Lhs then b.table.(lhs := Some(d)) else b.table.(rhs := Some(d));
    ReturnedAppend(back, [PlaceInSlot(d, slot)]);
    Reaction(b.(dragged := None, table := table), back + [PlaceInSlot(d, slot)])
  }

  /**
   * A left release. Without a dragged card nothing happens. A card dropped
   * over either input slot goes to the nearer one, displacing its occupant
   * back to the hand; dropped anywhere else it returns to the hand. Either
   * way the drag ends.
   */
  function MouseUp(b: B.BattleState, overSlot: bool, dropX: real): (r: Reaction)
    ensures b.dragged.None? ==> r == Reaction(b, [])
    ensures b.dragged.Some? ==> r.state.dragged.None? && |r.calls| >= 1
    ensures r.state.player == b.player && r.state.bot == b.bot
    ensures r.state == b.(dragged := r.state.dragged, table := r.state.table)
    ensures r.state.table == b.table.(lhs := r.state.table.lhs, rhs := r.state.table.rhs)
    ensures b.dragged.Some? && !overSlot ==>
              r.calls == [ReturnToHand(b.dragged.value)] && r.state.table == b.table
    ensures b.dragged.Some? && overSlot ==>
              r.calls[|r.calls| - 1] == PlaceInSlot(b.dragged.value, if NearerLhs(b.table, dropX) then FusionTables.Lhs else FusionTables.Rhs)
    ensures b.dragged.Some? && overSlot && NearerLhs(b.table, dropX) ==>
              r.state.table == b.table.(lhs := b.dragged)
    ensures b.dragged.Some? && overSlot && !NearerLhs(b.table, dropX) ==>
              r.state.table == b.table.(rhs := b.dragged)
  {
    match b.dragged
    case None => Reaction(b, [])
    case Some(d) =>
      if overSlot then
        Place(b, d, if NearerLhs(b.table, dropX) then FusionTables.Lhs else FusionTables.Rhs)
      else Reaction(b.(dragged := None), [ReturnToHand(d)])
  }

  /**
   * No card is lost or duplicated by a release: what sits in the slots or
   * is being dragged afterwards, together with what goes back to the hand,
   * is what sat in the slots or was dragged before.
   */
  lemma MouseUpConserves(b: B.BattleState, overSlot: bool, dropX: real)
    ensures var r := MouseUp(b, overSlot, dropX);
            B.SlotCards(r.state.table) + B.Held(r.state.dragged) + Returned(r.calls)
            == B.SlotCards(b.table) + B.Held(b.dragged)
  {
    var r := MouseUp(b, overSlot, dropX);
    if b.dragged.Some? && !overSlot {
      assert Returned(r.calls) == multiset{b.dragged.value} + Returned([]);
    }
  }

  lemma {:induction false} ReturnedAppend(xs: seq<CardCall>, ys: seq<CardCall>)
    ensures Returned(xs + ys) == Returned(xs) + Returned(ys)
  {
    if |xs| == 0 {
      assert xs + ys == ys;
    } else {
      assert (xs + ys)[1..] == xs[1..] + ys;
      ReturnedAppend(xs[1..], ys);
    }
  }

  /** `handle_event`: left presses and releases; everything else is ignored. */
  function HandleEvent(b: B.BattleState, e: Event): (r: Reaction)
    ensures r.state.player == b.player && r.state.bot == b.bot
    ensures r.state == b.(dragged := r.state.dragged, table := r.state.table)
    ensures e.LeftDown? ==> r == MouseDown(b, e.grab, e.overLhs, e.overRhs)
    ensures e.LeftUp? ==> r == MouseUp(b, e.overSlot, e.dropX)
    ensures e.Other? ==> r == Reaction(b, [])
  {
    match e
    case LeftDown(grab, overLhs, overRhs) => MouseDown(b, grab, overLhs, overRhs)
    case LeftUp(overSlot, dropX) => MouseUp(b, overSlot, dropX)
    case Other => Reaction(b, [])
  }

  /**
   * Dropping a card into the left slot and pressing on that slot again
   * (away from the hand) picks the same card back up and leaves the slot
   * empty.
   */
  lemma DropThenPickUp(b: B.BattleState, dropX: real, grab: seq<bool>)
    requires b.dragged.Some? && NearerLhs(b.table, dropX)
    requires FirstGrab(b.player.hand, grab, 0).None?
    ensures var up := MouseUp(b, true, dropX);
            var down := MouseDown(up.state, grab, true, false);
            && down.state.dragged == b.dragged
            && down.state.table == b.table.(lhs := None)
            && down.calls == [StartDrag(b.dragged.value)]
  {
  }

  /**
   * Picking the card up from the left slot and releasing it right over
   * that slot puts it back: the state is as before, and the card was told
   * to start dragging and then to sit in the left slot.
   */
  lemma PickUpThenDrop(b: B.BattleState, grab: seq<bool>)
    requires b.dragged.None? && b.table.lhs.Some?
    requires FirstGrab(b.player.hand, grab, 0).None?
    requires b.table.lhsRect.x != b.table.rhsRect.x
    ensures var down := MouseDown(b, grab, true, false);
            var up := MouseUp(down.state, true, b.table.lhsRect.x);
            && up.state == b
            && down.calls + up.calls == [StartDrag(b.table.lhs.value), PlaceInSlot(b.table.lhs.value, FusionTables.Lhs)]
  {
    var down := MouseDown(b, grab, true, false);
    assert NearerLhs(down.state.table, b.table.lhsRect.x);
  }
}

=== FILE: battle_round.dfy ===
/**
 * Properties of a whole round: the round timeline's schedule, which of its
 * callbacks fire under which frame rates, and what the callbacks together
 * do to the two players.
 */
module BattleRounds {
  import opened Wrappers
  import opened Cards
  import Enums
  import Sq = Sequencers
  import SP = SequencerProps
  import Players
  import Bots
  import opened Battles

  /** Start times of the seven round frames, in seconds after the click. */
  const RoundStarts: seq<real> := [0.0, 0.65, 1.0, 1.35, 1.7, 2.25, 3.05]
  const RoundTotal: real := 3.05

  /** The round timeline: frame `i` starts at `RoundStarts[i]` and the round lasts 3.05 seconds. */
  lemma RoundSchedule()
    ensures Sq.New(RoundFrames()).line.starts == RoundStarts
    ensures Sq.New(RoundFrames()).line.total == RoundTotal
  {
    var fs := RoundFrames();
    var l := Sq.New(fs).line;
    forall i | 0 <= i < 7
      ensures Sq.Sum(fs[..i + 1]) == Sq.Sum(fs[..i]) + fs[i].duration
    {
      Sq.SumSnoc(fs, i);
    }
    assert Sq.Sum(fs[..0]) == 0.0;
    assert fs[..7] == fs;
  }

  /** The callbacks of the frames `fired` names, in firing order. */
  function ActionsOf(frames: seq<Sq.Frame<RoundAction>>, fired: seq<nat>): (acts: seq<RoundAction>)
    ensures fired == [] ==> acts == []
  {
    if |fired| == 0 then []
    else (if fired[0] < |frames| then frames[fired[0]].actions else []) + ActionsOf(frames, fired[1..])
  }

  lemma {:induction false} ActionsOfAppend(frames: seq<Sq.Frame<RoundAction>>, xs: seq<nat>, ys: seq<nat>)
    ensures ActionsOf(frames, xs + ys) == ActionsOf(frames, xs) + ActionsOf(frames, ys)
  {
    if |xs| == 0 {
      assert xs + ys == ys;
    } else {
      assert (xs + ys)[1..] == xs[1..] + ys;
      ActionsOfAppend(frames, xs[1..], ys);
    }
  }

  /** Firing the round's frames 0 through 6 runs its seven callbacks once each, in order. */
  lemma AllFramesRunAllActions()
    ensures ActionsOf(RoundFrames(), SP.Range(0, 7)) == RoundActions
  {
    LaterFramesRunLaterActions(0);
  }

  /** Firing frames k through 6 runs the callbacks from the k-th on. */
  lemma {:induction false} LaterFramesRunLaterActions(k: nat)
    requires k <= 7
    ensures ActionsOf(RoundFrames(), SP.Range(k, 7)) == RoundActions[k..]
    decreases 7 - k
  {
    if k < 7 {
      var r := SP.Range(k, 7);
      assert r[1..] == SP.Range(k + 1, 7);
      LaterFramesRunLaterActions(k + 1);
      assert RoundActions[k..] == [RoundActions[k]] + RoundActions[k + 1..];
    }
  }

  /** Elapsed times under the shake duration are short steps for the round timeline. */
  lemma ShortForRound(dts: seq<real>)
    requires forall i :: 0 <= i < |dts| ==> 0.0 <= dts[i] < ShakeDuration
    ensures SP.AllShort(Sq.New(RoundFrames()).line, dts) && SP.Forward(dts)
  {
    var l := Sq.New(RoundFrames()).line;
    forall i | 0 <= i < |dts|
      ensures SP.ShortStep(l, dts[i])
    {
    }
  }

  /**
   * At a frame rate where every frame time is shorter than the shortest
   * round frame, a round that runs for its full length fires all seven
   * frames exactly once and in order.
   */
  lemma ShortFramesFireEveryFrame(dts: seq<real>)
    requires forall i :: 0 <= i < |dts| ==> 0.0 <= dts[i] < ShakeDuration
    requires |dts| > 0 && SP.Total(dts) >= RoundTotal
    ensures SP.Run(Sq.New(RoundFrames()), dts).0.done
    ensures SP.Run(Sq.New(RoundFrames()), dts).1 == SP.Range(0, 7)
  {
    var s := Sq.New(RoundFrames());
    RoundSchedule();
    SP.NewIsClocked(RoundFrames());
    ShortForRound(dts);
    SP.RunFiresConsecutively(s, dts);
    SP.RunReachesEnd(s, dts);
    var run := SP.Run(s, dts);
    assert s.index + 1 == 0 && run.0.index + 1 == 7;
  }

  /** Hence every callback of the round runs once, in timeline order. */
  lemma ShortFramesRunEveryAction(dts: seq<real>)
    requires forall i :: 0 <= i < |dts| ==> 0.0 <= dts[i] < ShakeDuration
    requires |dts| > 0 && SP.Total(dts) >= RoundTotal
    ensures ActionsOf(RoundFrames(), SP.Run(Sq.New(RoundFrames()), dts).1) == RoundActions
  {
    ShortFramesFireEveryFrame(dts);
    AllFramesRunAllActions();
  }

  /**
   * A lag spike skips a callback: one frame that takes a whole second,
   * right after the round's first update, jumps from the travel frame
   * straight into the gap frame, and the player's shake frame never fires
   * for the rest of the round.
   */
  lemma LagSpikeSkipsPlayerShake(later: seq<real>)
    requires SP.Forward(later)
    ensures var s0 := Sq.New(RoundFrames());
            var st1 := Sq.Update(s0, 0.0);
            var st2 := Sq.Update(st1.next, 1.0);
            && st1.fired == Some(0) && st2.fired == Some(2)
            && 1 !in SP.Run(st2.next, later).1
  {
    var s0 := Sq.New(RoundFrames());
    RoundSchedule();
    SP.NewIsClocked(RoundFrames());
    var st1 := Sq.Update(s0, 0.0);
    assert Sq.Covers(s0.line, 0, 0.0);
    SP.FindFrameSpans(s0.line, 0.0);
    SP.UpdateKeepsClock(s0, 0.0);
    var st2 := Sq.Update(st1.next, 1.0);
    assert Sq.Covers(s0.line, 2, 1.0);
    SP.FindFrameSpans(s0.line, 1.0);
    SP.SkippedFramesNeverFire(st1.next, 1.0, later, 1);
  }

  /**
   * Two states that agree on everything but the parts no callback reads:
   * the timeline, the battling flag and the shake clock.
   */
  predicate AgreeOffClock(x: BattleState, y: BattleState)
  {
    && x.player == y.player && x.bot == y.bot && x.table == y.table && x.dragged == y.dragged
    && x.played == y.played && x.botPlayed == y.botPlayed && x.shake == y.shake
    && x.playerAttackDone == y.playerAttackDone && x.botAttackDone == y.botAttackDone
    && x.cardsUsed == y.cardsUsed && x.playExitActive == y.playExitActive
    && x.botExitActive == y.botExitActive && x.tableShown == y.tableShown && x.screen == y.screen
  }

  /** A callback's effect does not depend on the timeline, the battling flag or the shake clock. */
  lemma ApplyActionAgrees(x: BattleState, y: BattleState, a: RoundAction)
    requires AgreeOffClock(x, y)
    ensures AgreeOffClock(ApplyAction(x, a), ApplyAction(y, a))
  {
    match a
    case HideTable => HideAgrees(x, y);
    case StartTravel => TravelAgrees(x, y);
    case StartPlayerShake => PlayerShakeAgrees(x, y);
    case StartGap => GapAgrees(x, y);
    case StartBotShake => BotShakeAgrees(x, y);
    case StartExit => ExitAgrees(x, y);
    case ShowTable => RefillAgrees(x, y);
    case FinishRound => CloseAgrees(x, y);
  }

  lemma HideAgrees(x: BattleState, y: BattleState)
    requires AgreeOffClock(x, y)
    ensures AgreeOffClock(ApplyAction(x, HideTable), ApplyAction(y, HideTable))
  {
  }

  lemma TravelAgrees(x: BattleState, y: BattleState)
    requires AgreeOffClock(x, y)
    ensures AgreeOffClock(ApplyAction(x, StartTravel), ApplyAction(y, StartTravel))
  {
  }

  lemma PlayerShakeAgrees(x: BattleState, y: BattleState)
    requires AgreeOffClock(x, y)
    ensures AgreeOffClock(ApplyAction(x, StartPlayerShake), ApplyAction(y, StartPlayerShake))
  {
  }

  lemma GapAgrees(x: BattleState, y: BattleState)
    requires AgreeOffClock(x, y)
    ensures AgreeOffClock(ApplyAction(x, StartGap), ApplyAction(y, StartGap))
  {
  }

  lemma BotShakeAgrees(x: BattleState, y: BattleState)
    requires AgreeOffClock(x, y)
    ensures AgreeOffClock(ApplyAction(x, StartBotShake), ApplyAction(y, StartBotShake))
  {
  }

  lemma ExitAgrees(x: BattleState, y: BattleState)
    requires AgreeOffClock(x, y)
    ensures AgreeOffClock(ApplyAction(x, StartExit), ApplyAction(y, StartExit))
  {
  }

  lemma RefillAgrees(x: BattleState, y: BattleState)
    requires AgreeOffClock(x, y)
    ensures AgreeOffClock(ApplyAction(x, ShowTable), ApplyAction(y, ShowTable))
  {
  }

  lemma CloseAgrees(x: BattleState, y: BattleState)
    requires AgreeOffClock(x, y)
    ensures AgreeOffClock(ApplyAction(x, FinishRound), ApplyAction(y, FinishRound))
  {
  }

  lemma {:induction false} ApplyAllAgrees(x: BattleState, y: BattleState, acts: seq<RoundAction>)
    requires AgreeOffClock(x, y)
    ensures AgreeOffClock(ApplyAll(x, acts), ApplyAll(y, acts))
    decreases |acts|
  {
    if |acts| > 0 {
      ApplyActionAgrees(x, y, acts[0]);
      ApplyAllAgrees(ApplyAction(x, acts[0]), ApplyAction(y, acts[0]), acts[1..]);
    }
  }

  /**
   * The shake clock a callback leaves depends only on the clock it finds:
   * the callbacks that open a shake or the gap restart it, and every other
   * callback keeps it.
   */
  lemma ApplyActionShakeClock(b: BattleState, a: RoundAction)
    ensures ApplyAction(b, a).shakeElapsed
            == if a == StartPlayerShake || a == StartGap || a == StartBotShake then 0.0 else b.shakeElapsed
  {
    match a
    case ShowTable => assert ApplyAction(b, a) == RefillHand(b);
    case FinishRound => assert ApplyAction(b, a) == CloseRound(b);
    case _ =>
  }

  lemma {:induction false} ApplyAllShakeClock(x: BattleState, y: BattleState, acts: seq<RoundAction>)
    requires x.shakeElapsed == y.shakeElapsed
    ensures ApplyAll(x, acts).shakeElapsed == ApplyAll(y, acts).shakeElapsed
    decreases |acts|
  {
    if |acts| > 0 {
      ApplyActionShakeClock(x, acts[0]);
      ApplyActionShakeClock(y, acts[0]);
      ApplyAllShakeClock(ApplyAction(x, acts[0]), ApplyAction(y, acts[0]), acts[1..]);
    }
  }

  lemma {:induction false} ApplyAllAppend(b: BattleState, xs: seq<RoundAction>, ys: seq<RoundAction>)
    ensures ApplyAll(b, xs + ys) == ApplyAll(ApplyAll(b, xs), ys)
    decreases |xs|
  {
    if |xs| == 0 {
      assert xs + ys == ys;
    } else {
      assert (xs + ys)[1..] == xs[1..] + ys;
      ApplyAllAppend(ApplyAction(b, xs[0]), xs[1..], ys);
    }
  }

  /** The game loop between clicks on Play: one `update` per elapsed frame time. */
  function Ticks(b: BattleState, dts: seq<real>): (r: BattleState)
    requires Inv(b)
    ensures Inv(r)
    decreases |dts|
  {
    if |dts| == 0 then b else Ticks(Tick(b, dts[0], false, None).value, dts[1..])
  }

  /** The frames a step fired, as a list. */
  function FiredList(st: Sq.Step<RoundAction>): seq<nat>
  {
    if st.fired.Some? then [st.fired.value] else []
  }

  lemma OneStepActions(st: Sq.Step<RoundAction>)
    requires Sq.Valid(st.next) && (st.fired.Some? ==> st.fired.value == st.next.index)
    ensures Sq.FiredActions(st) == ActionsOf(st.next.line.frames, FiredList(st))
  {
    if st.fired.Some? {
      assert FiredList(st)[1..] == [];
    }
  }

  /** An update's callbacks act on the state as if the timeline had not moved. */
  lemma AdvanceAgrees(b: BattleState, dt: real)
    requires Inv(b)
    ensures AgreeOffClock(Advance(b, dt), ApplyAll(b, Sq.FiredActions(Sq.Update(b.sequencer, dt))))
  {
    var st := Sq.Update(b.sequencer, dt);
    var moved := b.(sequencer := st.next);
    var acts := Sq.FiredActions(st);
    var applied := ApplyAll(moved, acts);
    assert AgreeOffClock(Advance(b, dt), applied);
    ApplyAllAgrees(moved, b, acts);
  }

  /** One tick of a running round is one sequencer update plus the callbacks of the frame it fired. */
  lemma TickFollowsUpdate(b: BattleState, dt: real)
    requires Inv(b) && b.battling
    ensures var st := Sq.Update(b.sequencer, dt);
            var b1 := Tick(b, dt, false, None).value;
            var applied := ApplyAll(b, ActionsOf(b.sequencer.line.frames, FiredList(st)));
            && b1.sequencer == st.next
            && b1.battling == !st.next.done
            && AgreeOffClock(b1, applied)
            && b1.shakeElapsed == AdvanceShakeTime(applied, dt).shakeElapsed
  {
    var st := Sq.Update(b.sequencer, dt);
    OneStepActions(st);
    AdvanceAgrees(b, dt);
    var adv := Advance(b, dt);
    var b1 := AdvanceShakeTime(adv, dt);
    assert Tick(b, dt, false, None) == Success(b1);
    assert AgreeOffClock(b1, adv);
    ApplyAllShakeClock(b.(sequencer := st.next), b, Sq.FiredActions(st));
  }

  /**
   * Between clicks, the game loop runs exactly the callbacks of the frames
   * the sequencer fires, in firing order, and stops battling once the
   * timeline is done. (A round is running, or its timeline has finished.)
   */
  lemma {:induction false} TicksFollowRun(b: BattleState, dts: seq<real>)
    requires Inv(b) && (b.battling || b.sequencer.done)
    ensures Ticks(b, dts).sequencer == SP.Run(b.sequencer, dts).0
    ensures |dts| > 0 ==> Ticks(b, dts).battling == (b.battling && !SP.Run(b.sequencer, dts).0.done)
    ensures AgreeOffClock(Ticks(b, dts), ApplyAll(b, ActionsOf(b.sequencer.line.frames, SP.Run(b.sequencer, dts).1)))
    decreases |dts|
  {
    var frames := b.sequencer.line.frames;
    if |dts| == 0 {
    } else if b.battling {
      var st := Sq.Update(b.sequencer, dts[0]);
      var b1 := Tick(b, dts[0], false, None).value;
      TickFollowsUpdate(b, dts[0]);
      TicksFollowRun(b1, dts[1..]);
      var rest := SP.Run(st.next, dts[1..]).1;
      assert SP.Run(b.sequencer, dts).1 == FiredList(st) + rest;
      ActionsOfAppend(frames, FiredList(st), rest);
      var first := ApplyAll(b, ActionsOf(frames, FiredList(st)));
      ApplyAllAgrees(b1, first, ActionsOf(frames, rest));
      ApplyAllAppend(b, ActionsOf(frames, FiredList(st)), ActionsOf(frames, rest));
      if st.next.done {
        SP.RunWhenDone(st.next, dts[1..]);
      }
      if |dts| == 1 {
        assert SP.Run(b.sequencer, dts).0 == st.next;
      }
    } else {
      var b1 := Tick(b, dts[0], false, None).value;
      assert b1 == b.(shakeElapsed := b1.shakeElapsed);
      SP.RunWhenDone(b.sequencer, dts);
      SP.RunWhenDone(b1.sequencer, dts[1..]);
      TicksFollowRun(b1, dts[1..]);
    }
  }

  /**
   * Which callbacks move the shake phase: the two shakes and the gap start
   * their phase with a fresh shake clock, the finish ends shaking, and the
   * other callbacks leave the phase alone. In timeline order this is
   * idle, player, gap, bot, done.
   */
  lemma ShakePhases(s: BattleState, a: RoundAction)
    ensures a == StartPlayerShake ==> ApplyAction(s, a).shake == PlayerShake && ApplyAction(s, a).shakeElapsed == 0.0
    ensures a == StartGap ==> ApplyAction(s, a).shake == Gap && ApplyAction(s, a).shakeElapsed == 0.0
    ensures a == StartBotShake ==> ApplyAction(s, a).shake == BotShake && ApplyAction(s, a).shakeElapsed == 0.0
    ensures a == FinishRound ==> ApplyAction(s, a).shake == Done
    ensures a == HideTable || a == StartTravel || a == StartExit || a == ShowTable ==>
              ApplyAction(s, a).shake == s.shake && ApplyAction(s, a).shakeElapsed == s.shakeElapsed
  {
    match a
    case ShowTable => assert ApplyAction(s, a) == RefillHand(s);
    case FinishRound => assert ApplyAction(s, a) == CloseRound(s);
    case _ =>
  }

  lemma ApplyAllStep(b: BattleState, acts: seq<RoundAction>)
    requires |acts| > 0
    ensures ApplyAll(b, acts) == ApplyAll(ApplyAction(b, acts[0]), acts[1..])
  {
  }

  /**
   * The seven callbacks of a round, from a fresh play with both cards in
   * play: each side is hit exactly once with its opponent's damage, the
   * exits start, the table returns, and the round closes with the verdict
   * on the resulting healths and hands.
   */
  lemma RoundEffect(s: BattleState)
    requires BothPlayed(s) && !s.playerAttackDone && !s.botAttackDone
    ensures var e := ApplyAll(s, RoundActions);
            var p := s.played.value;
            var q := s.botPlayed.value;
            && e.bot.health == s.bot.health - Damage(p.attack, q.defense)
            && e.player.health == s.player.health - Damage(q.attack, p.defense)
            && e.playerAttackDone && e.botAttackDone
            && e.shake == Done && e.played.None? && e.botPlayed.None?
            && e.playExitActive && e.botExitActive && e.tableShown
            && e.screen == Verdict(e.player, e.bot, s.screen)
  {
    var first := RoundActions[..4];
    var rest := RoundActions[4..];
    assert RoundActions == first + rest;
    ApplyAllAppend(s, first, rest);
    var mid := ApplyAll(s, first);
    ShakesEffect(s);
    CloseEffect(mid);
  }

  /** The first four callbacks: travel, the player's hit, the gap, the bot's hit. */
  lemma ShakesEffect(s: BattleState)
    requires BothPlayed(s) && !s.playerAttackDone && !s.botAttackDone
    ensures var e := ApplyAll(s, RoundActions[..4]);
            var p := s.played.value;
            var q := s.botPlayed.value;
            && e.bot.health == s.bot.health - Damage(p.attack, q.defense)
            && e.player.health == s.player.health - Damage(q.attack, p.defense)
            && e.playerAttackDone && e.botAttackDone
            && e.played == s.played && e.botPlayed == s.botPlayed && e.screen == s.screen
  {
    var acts := RoundActions[..4];
    assert acts == [StartTravel, StartPlayerShake, StartGap, StartBotShake];
    var s1 := ApplyAction(s, StartTravel);
    var s2 := ApplyAction(s1, StartPlayerShake);
    var s3 := ApplyAction(s2, StartGap);
    var s4 := ApplyAction(s3, StartBotShake);
    ApplyAllStep(s, acts);
    ApplyAllStep(s1, acts[1..]);
    ApplyAllStep(s2, acts[2..]);
    ApplyAllStep(s3, acts[3..]);
    assert ApplyAll(s4, acts[4..]) == s4;
    assert PlayerHits(s1, PlayerShake);
    assert BotHits(s3, BotShake);
  }

  /** The last three callbacks: the exits start, the table returns, the round closes. */
  lemma CloseEffect(s: BattleState)
    ensures var e := ApplyAll(s, RoundActions[4..]);
            && e.bot.health == s.bot.health && e.player.health == s.player.health
            && e.playerAttackDone == s.playerAttackDone && e.botAttackDone == s.botAttackDone
            && e.shake == Done && e.played.None? && e.botPlayed.None?
            && e.playExitActive == (s.playExitActive || s.played.Some?)
            && e.botExitActive == (s.botExitActive || s.botPlayed.Some?)
            && e.tableShown
            && e.screen == Verdict(e.player, e.bot, s.screen)
  {
    var s5 := ApplyAction(s, StartExit);
    var s6 := ApplyAction(s5, ShowTable);
    var s7 := ApplyAction(s6, FinishRound);
    LastThree(s);
    ExitStep(s);
    ShowStep(s5);
    CloseStep(s6);
  }

  lemma LastThree(s: BattleState)
    ensures ApplyAll(s, RoundActions[4..])
            == ApplyAction(ApplyAction(ApplyAction(s, StartExit), ShowTable), FinishRound)
  {
    var acts := RoundActions[4..];
    var s5 := ApplyAction(s, StartExit);
    var s6 := ApplyAction(s5, ShowTable);
    ApplyAllStep(s, acts);
    ApplyAllStep(s5, acts[1..]);
    ApplyAllStep(s6, acts[2..]);
    assert acts[3..] == [];
  }

  lemma ExitStep(x: BattleState)
    ensures var y := ApplyAction(x, StartExit);
            && y.playExitActive == (x.playExitActive || x.played.Some?)
            && y.botExitActive == (x.botExitActive || x.botPlayed.Some?)
            && y.bot == x.bot && y.player == x.player && y.played == x.played && y.botPlayed == x.botPlayed
            && y.playerAttackDone == x.playerAttackDone && y.botAttackDone == x.botAttackDone
            && y.screen == x.screen
  {
  }

  lemma ShakeStep(x: BattleState, phase: ShakePhase)
    ensures StartShake(x, phase).played == x.played && StartShake(x, phase).botPlayed == x.botPlayed
  {
    var y := StartShake(x, phase);
    assert y.played == y.(shake := x.shake).played;
  }

  lemma ShowStep(x: BattleState)
    ensures var y := ApplyAction(x, ShowTable);
            && y.tableShown
            && y.bot == x.bot && y.player.health == x.player.health
            && y.played == x.played && y.botPlayed == x.botPlayed
            && y.playExitActive == x.playExitActive && y.botExitActive == x.botExitActive
            && y.playerAttackDone == x.playerAttackDone && y.botAttackDone == x.botAttackDone
            && y.screen == x.screen
  {
    var y := ApplyAction(x, ShowTable);
    assert y == RefillHand(x);
  }

  lemma CloseStep(x: BattleState)
    ensures var y := ApplyAction(x, FinishRound);
            && y.shake == Done && y.played.None? && y.botPlayed.None?
            && y.bot.health == x.bot.health && y.player.health == x.player.health
            && y.playExitActive == x.playExitActive && y.botExitActive == x.botExitActive
            && y.playerAttackDone == x.playerAttackDone && y.botAttackDone == x.botAttackDone
            && y.tableShown == x.tableShown
            && y.screen == Verdict(y.player, y.bot, x.screen)
  {
    var y := ApplyAction(x, FinishRound);
    assert y == CloseRound(x);
  }

  /**
   * Whatever callbacks run, and in whatever order, the player's card hits
   * the bot at most once per round: the bot has lost that damage exactly
   * when the player's hit is marked done, and nothing otherwise.
   */
  ghost predicate PlayerHitOnce(s: BattleState, x: BattleState)
    requires BothPlayed(s)
  {
    && x.bot.health == s.bot.health - (if x.playerAttackDone then Damage(s.played.value.attack, s.botPlayed.value.defense) else 0)
    && (!x.playerAttackDone ==> x.played.None? || x.played == s.played)
    && (!x.playerAttackDone ==> x.botPlayed.None? || x.botPlayed == s.botPlayed)
  }

  lemma PlayerHitStep(s: BattleState, x: BattleState, a: RoundAction)
    requires BothPlayed(s) && PlayerHitOnce(s, x)
    ensures PlayerHitOnce(s, ApplyAction(x, a))
  {
    match a
    case StartPlayerShake =>
      ShakeStep(x, PlayerShake);
      assert ApplyAction(x, a) == StartShake(x, PlayerShake);
    case StartBotShake =>
      ShakeStep(x, BotShake);
      assert ApplyAction(x, a) == StartShake(x, BotShake);
    case ShowTable => ShowStep(x);
    case FinishRound => CloseStep(x);
    case _ =>
  }

  lemma {:induction false} PlayerHitsAtMostOnce(s: BattleState, x: BattleState, acts: seq<RoundAction>)
    requires BothPlayed(s) && PlayerHitOnce(s, x)
    ensures PlayerHitOnce(s, ApplyAll(x, acts))
    decreases |acts|
  {
    if |acts| > 0 {
      PlayerHitStep(s, x, acts[0]);
      PlayerHitsAtMostOnce(s, ApplyAction(x, acts[0]), acts[1..]);
    }
  }

  /** The same for the bot's card hitting the player. */
  ghost predicate BotHitOnce(s: BattleState, x: BattleState)
    requires BothPlayed(s)
  {
    && x.player.health == s.player.health - (if x.botAttackDone then Damage(s.botPlayed.value.attack, s.played.value.defense) else 0)
    && (!x.botAttackDone ==> x.played.None? || x.played == s.played)
    && (!x.botAttackDone ==> x.botPlayed.None? || x.botPlayed == s.botPlayed)
  }

  lemma BotHitStep(s: BattleState, x: BattleState, a: RoundAction)
    requires BothPlayed(s) && BotHitOnce(s, x)
    ensures BotHitOnce(s, ApplyAction(x, a))
  {
    match a
    case StartPlayerShake =>
      ShakeStep(x, PlayerShake);
      assert ApplyAction(x, a) == StartShake(x, PlayerShake);
    case StartBotShake =>
      ShakeStep(x, BotShake);
      assert ApplyAction(x, a) == StartShake(x, BotShake);
    case ShowTable => ShowStep(x);
    case FinishRound => CloseStep(x);
    case _ =>
  }

  lemma {:induction false} BotHitsAtMostOnce(s: BattleState, x: BattleState, acts: seq<RoundAction>)
    requires BothPlayed(s) && BotHitOnce(s, x)
    ensures BotHitOnce(s, ApplyAll(x, acts))
    decreases |acts|
  {
    if |acts| > 0 {
      BotHitStep(s, x, acts[0]);
      BotHitsAtMostOnce(s, ApplyAction(x, acts[0]), acts[1..]);
    }
  }

  /** A click on Play while no round runs is the play followed by an ordinary tick. */
  lemma ClickStartsRound(b: BattleState, dt: real, c: Card)
    requires Inv(b) && !b.battling && SlotCards(b.table) <= multiset(b.player.hand)
    ensures PlayCard(b, Some(c)).value.battling
    ensures Tick(b, dt, true, Some(c)) == Tick(PlayCard(b, Some(c)).value, dt, false, None)
  {
  }

  /** A click on Play while a round runs is ignored, whatever the table offers. */
  lemma NoPlayWhileBattling(b: BattleState, dt: real, fused: Option<Card>)
    requires Inv(b) && b.battling
    ensures Tick(b, dt, true, fused) == Tick(b, dt, false, None)
  {
  }

  /** With no round running and no click, a frame only advances the shake clock. */
  lemma TickIdle(b: BattleState, dt: real, fused: Option<Card>)
    requires Inv(b) && !b.battling
    ensures Tick(b, dt, false, fused) == Success(AdvanceShakeTime(b, dt))
  {
  }

  /**
   * A click on Play with no fused card on offer starts no round: it only
   * clears the played card, and the frame is otherwise an idle one.
   */
  lemma ClickWithoutFusion(b: BattleState, dt: real)
    requires Inv(b) && !b.battling
    ensures Tick(b, dt, true, None) == Success(AdvanceShakeTime(b.(played := None), dt))
    ensures Tick(b, dt, true, None) == Tick(b.(played := None), dt, false, None)
  {
  }

  /** Ticking never heals either side. */
  lemma {:induction false} TicksNeverHeal(b: BattleState, dts: seq<real>)
    requires Inv(b)
    ensures Ticks(b, dts).player.health <= b.player.health
    ensures Ticks(b, dts).bot.health <= b.bot.health
    decreases |dts|
  {
    if |dts| > 0 {
      TicksNeverHeal(Tick(b, dts[0], false, None).value, dts[1..]);
    }
  }

  /**
   * A round started by a click, played at a frame rate where every frame
   * time is shorter than a shake and for its full 3.05 seconds, resolves
   * completely: the player's card hits the bot's once, the bot's card hits
   * back once, the played cards are cleared, battling stops, and the screen
   * is the verdict on the resulting healths and hands.
   */
  lemma ShortRoundResolves(b: BattleState, c: Card, dts: seq<real>)
    requires Inv(b) && !b.battling && SlotCards(b.table) <= multiset(b.player.hand)
    requires |b.bot.deck| > 0
    requires forall i :: 0 <= i < |dts| ==> 0.0 <= dts[i] < ShakeDuration
    requires |dts| > 0 && SP.Total(dts) >= RoundTotal
    ensures var e := Ticks(PlayCard(b, Some(c)).value, dts);
            var q := b.bot.deck[|b.bot.deck| - 1];
            && !e.battling && e.sequencer.done
            && e.bot.health == b.bot.health - Damage(c.attack, q.defense)
            && e.player.health == b.player.health - Damage(q.attack, c.defense)
            && e.shake == Done && e.played.None? && e.botPlayed.None?
            && e.screen == Verdict(e.player, e.bot, b.screen)
  {
    var s := PlayCard(b, Some(c)).value;
    var e := Ticks(s, dts);
    TicksFollowRun(s, dts);
    ShortFramesFireEveryFrame(dts);
    ShortFramesRunEveryAction(dts);
    RoundEffect(s);
    var done := ApplyAll(s, RoundActions);
    assert e.bot == done.bot && e.player == done.player && e.screen == done.screen;
  }

  /** No frame but the player's shake frame runs the player's shake. */
  lemma {:induction false} PlayerShakeOnlyInFrameOne(fired: seq<nat>)
    requires 1 !in fired
    ensures StartPlayerShake !in ActionsOf(RoundFrames(), fired)
    decreases |fired|
  {
    if |fired| > 0 {
      var fs := RoundFrames();
      assert fired[0] != 1 && fired[1..] == fired[1..];
      assert 1 !in fired[1..];
      PlayerShakeOnlyInFrameOne(fired[1..]);
      if fired[0] < |fs| {
        assert fs[fired[0]].actions == [RoundActions[fired[0]]];
      }
    }
  }

  /** Only the player's shake hurts the bot. */
  lemma {:induction false} OnlyPlayerShakeHurtsBot(s: BattleState, acts: seq<RoundAction>)
    requires StartPlayerShake !in acts
    ensures ApplyAll(s, acts).bot.health == s.bot.health
    decreases |acts|
  {
    if |acts| > 0 {
      assert acts[0] != StartPlayerShake && StartPlayerShake !in acts[1..];
      if acts[0] == ShowTable {
        ShowStep(s);
      } else if acts[0] == FinishRound {
        CloseStep(s);
      }
      OnlyPlayerShakeHurtsBot(ApplyAction(s, acts[0]), acts[1..]);
    }
  }

  /**
   * Because a long frame skips the frames it jumps over, a round whose
   * second update takes a whole second never runs the player's attack:
   * however the round goes on, the bot loses no health.
   */
  lemma LagSpikeSparesBot(b: BattleState, c: Card, later: seq<real>)
    requires Inv(b) && !b.battling && SlotCards(b.table) <= multiset(b.player.hand)
    requires SP.Forward(later)
    ensures Ticks(PlayCard(b, Some(c)).value, [0.0, 1.0] + later).bot.health == b.bot.health
  {
    var s := PlayCard(b, Some(c)).value;
    var dts := [0.0, 1.0] + later;
    TicksFollowRun(s, dts);
    var fired := SP.Run(s.sequencer, dts).1;
    LagSpikeFires(later);
    PlayerShakeOnlyInFrameOne(fired);
    OnlyPlayerShakeHurtsBot(s, ActionsOf(s.sequencer.line.frames, fired));
  }

  /** One update, then the rest of the run. */
  lemma RunStep(s: Sq.Sequencer<RoundAction>, dt: real, rest: seq<real>)
    requires Sq.Valid(s)
    ensures SP.Run(s, [dt] + rest).1 == FiredList(Sq.Update(s, dt)) + SP.Run(Sq.Update(s, dt).next, rest).1
  {
    assert ([dt] + rest)[1..] == rest;
  }

  /** If the first two updates fire frames 0 and 2 and the rest of the run never fires frame 1, frame 1 never fires. */
  lemma SkipsFrameOne(s: Sq.Sequencer<RoundAction>, later: seq<real>)
    requires Sq.Valid(s)
    requires Sq.Update(s, 0.0).fired == Some(0)
    requires Sq.Update(Sq.Update(s, 0.0).next, 1.0).fired == Some(2)
    requires 1 !in SP.Run(Sq.Update(Sq.Update(s, 0.0).next, 1.0).next, later).1
    ensures 1 !in SP.Run(s, [0.0, 1.0] + later).1
  {
    var st1 := Sq.Update(s, 0.0);
    RunStep(st1.next, 1.0, later);
    RunStep(s, 0.0, [1.0] + later);
    assert [0.0, 1.0] + later == [0.0] + ([1.0] + later);
  }

  /** The frames a lag-spiked round fires never include the player's shake frame. */
  lemma LagSpikeFires(later: seq<real>)
    requires SP.Forward(later)
    ensures 1 !in SP.Run(Sq.New(RoundFrames()), [0.0, 1.0] + later).1
  {
    LagSpikeSkipsPlayerShake(later);
    SkipsFrameOne(Sq.New(RoundFrames()), later);
  }
}

=== FILE: bot.dfy ===
/** The automated opponent: health, a deck used as a stack, a hand, and the card it last played. */
module Bots {
  import opened Wrappers
  import opened Cards
  import opened Geometry

  const StartHealth := 30

  /** Gap between the top of the screen and the top of the bot's play position. */
  const PlayTopMargin: real := 40.0

  datatype Bot = Bot(health: int, deck: seq<Card>, hand: seq<Card>, played: Option<Card>, playRect: Rect)

  /** A bot after a draw, and the card the draw returned. */
  datatype Drawn = Drawn(bot: Bot, card: Option<Card>)

  /** `Bot()` with an already loaded deck; it plays from the top centre of the screen. */
  function New(deck: seq<Card>, screen: Vec2, cardSize: Vec2): (b: Bot)
    ensures b.health == StartHealth && b.deck == deck && b.hand == [] && b.played.None?
    ensures b.playRect.Center() == Vec2(screen.x / 2.0, cardSize.y / 2.0 + PlayTopMargin)
    ensures b.playRect.y == PlayTopMargin && b.playRect.w == cardSize.x
  {
    Bot(StartHealth, deck, [], None, CenteredAt(Vec2(screen.x / 2.0, cardSize.y / 2.0 + PlayTopMargin), cardSize))
  }

  /**
   * `draw_card`: pops the top of the deck into the hand and remembers it as
   * the played card; on an empty deck the played card is cleared and
   * nothing else changes.
   */
  function DrawCard(b: Bot): (r: Drawn)
    ensures r.bot.health == b.health && r.bot.playRect == b.playRect
    ensures r.bot.played == r.card
    ensures |b.deck| == 0 ==> r.card.None? && r.bot.deck == b.deck && r.bot.hand == b.hand
    ensures |b.deck| > 0 ==> r.card == Some(b.deck[|b.deck| - 1])
    ensures r.card.Some? ==> r.bot.deck + [r.card.value] == b.deck && r.bot.hand == b.hand + [r.card.value]
  {
    if |b.deck| == 0 then Drawn(b.(played := None), None)
    else
      var m := MoveTop(b.deck, b.hand);
      Drawn(b.(deck := m.deck, hand := m.hand, played := Some(m.card)), Some(m.card))
  }

  /** `draw_to_hand`: the same move, but the played card is left alone; an empty deck changes nothing. */
  function DrawToHand(b: Bot): (r: Drawn)
    ensures r.bot.played == b.played && r.bot.health == b.health && r.bot.playRect == b.playRect
    ensures |b.deck| == 0 ==> r == Drawn(b, None)
    ensures |b.deck| > 0 ==> r.card == Some(b.deck[|b.deck| - 1])
    ensures r.card.Some? ==> r.bot.deck + [r.card.value] == b.deck && r.bot.hand == b.hand + [r.card.value]
  {
    if |b.deck| == 0 then Drawn(b, None)
    else
      var m := MoveTop(b.deck, b.hand);
      Drawn(b.(deck := m.deck, hand := m.hand), Some(m.card))
  }

  /** Both kinds of draw keep deck and hand together the same multiset, and so the same count. */
  lemma DrawsKeepPool(b: Bot)
    ensures PoolOf(DrawCard(b).bot.deck, DrawCard(b).bot.hand) == PoolOf(b.deck, b.hand)
    ensures PoolOf(DrawToHand(b).bot.deck, DrawToHand(b).bot.hand) == PoolOf(b.deck, b.hand)
    ensures |DrawCard(b).bot.deck| + |DrawCard(b).bot.hand| == |b.deck| + |b.hand|
  {
    if |b.deck| > 0 {
      MoveTopKeepsPool(b.deck, b.hand);
    }
  }

  /** The two draws move the same card the same way; they differ only in the played card. */
  lemma DrawsAgree(b: Bot)
    ensures DrawCard(b).card == DrawToHand(b).card
    ensures DrawCard(b).bot == DrawToHand(b).bot.(played := DrawToHand(b).card)
  {
  }
}

=== FILE: card_animator.dfy ===
/** The per-card hover animator: a progress value clamped at 1 and a scale that follows the mouse. */
module CardAnimators {

  const RestScale: real := 1.0
  const HoverScale: real := 1.1
  const Speed: real := 5.0

  datatype CardAnimator = CardAnimator(rotation: real, scale: real, t: real, speed: real)

  /** `CardAnimator()`. */
  function New(): (a: CardAnimator)
    ensures a.rotation == 0.0 && a.scale == RestScale && a.t == 0.0 && a.speed == Speed
    ensures InUnit(a)
  {
    CardAnimator(0.0, RestScale, 0.0, Speed)
  }

  /** The progress lies in [0, 1] and the speed is not negative. */
  predicate InUnit(a: CardAnimator)
  {
    0.0 <= a.t <= 1.0 && a.speed >= 0.0
  }

  /** `on_enter`: enlarged; only the scale changes. */
  function OnEnter(a: CardAnimator): (r: CardAnimator)
    ensures r.scale == HoverScale && r.(scale := a.scale) == a
  {
    a.(scale := HoverScale)
  }

  /** `on_exit`: back to rest size; only the scale changes. */
  function OnExit(a: CardAnimator): (r: CardAnimator)
    ensures r.scale == RestScale && r.(scale := a.scale) == a
  {
    a.(scale := RestScale)
  }

  /** Entering or leaving twice is the same as once. */
  lemma EnterExitIdempotent(a: CardAnimator)
    ensures OnEnter(OnEnter(a)) == OnEnter(a)
    ensures OnExit(OnExit(a)) == OnExit(a)
  {
  }

  /**
   * `update` with elapsed time `dt` and the mouse-overlap test as input:
   * progress advances by `dt * speed` and is clamped at 1; the scale is the
   * hover scale exactly when the mouse overlaps the card.
   */
  function Update(a: CardAnimator, dt: real, overlaps: bool): (r: CardAnimator)
    ensures r.t <= 1.0
    ensures r.t == a.t + dt * a.speed || (r.t == 1.0 && a.t + dt * a.speed > 1.0)
    ensures r.scale == (if overlaps then HoverScale else RestScale)
    ensures r.rotation == a.rotation && r.speed == a.speed
  {
    var t := a.t + dt * a.speed;
    var clamped := a.(t := if t > 1.0 then 1.0 else t);
    if overlaps then OnEnter(clamped) else OnExit(clamped)
  }

  lemma ProductNonNegative(x: real, y: real)
    requires x >= 0.0 && y >= 0.0
    ensures x * y >= 0.0
  {
  }

  /** With forward time, progress never goes back and stays in [0, 1]. */
  lemma UpdateMonotone(a: CardAnimator, dt: real, overlaps: bool)
    requires InUnit(a) && dt >= 0.0
    ensures InUnit(Update(a, dt, overlaps))
    ensures a.t <= Update(a, dt, overlaps).t
  {
    ProductNonNegative(dt, a.speed);
  }

  /** A frame's elapsed time and whether the mouse overlapped the card then. */
  datatype Tick = Tick(dt: real, overlaps: bool)

  function Animate(a: CardAnimator, ticks: seq<Tick>): CardAnimator
    decreases |ticks|
  {
    if |ticks| == 0 then a else Animate(Update(a, ticks[0].dt, ticks[0].overlaps), ticks[1..])
  }

  /**
   * Over any run of forward frames the progress stays in [0, 1] and never
   * decreases, the rotation is never touched, and the scale reflects only
   * the last frame's mouse test.
   */
  lemma {:induction false} AnimateInvariant(a: CardAnimator, ticks: seq<Tick>)
    requires InUnit(a)
    requires forall i :: 0 <= i < |ticks| ==> ticks[i].dt >= 0.0
    ensures InUnit(Animate(a, ticks)) && a.t <= Animate(a, ticks).t
    ensures Animate(a, ticks).rotation == a.rotation
    ensures |ticks| > 0 ==> Animate(a, ticks).scale == (if ticks[|ticks| - 1].overlaps then HoverScale else RestScale)
    decreases |ticks|
  {
    if |ticks| > 0 {
      var b := Update(a, ticks[0].dt, ticks[0].overlaps);
      UpdateMonotone(a, ticks[0].dt, ticks[0].overlaps);
      assert forall i :: 0 <= i < |ticks[1..]| ==> ticks[1..][i].dt >= 0.0 by {
        forall i | 0 <= i < |ticks[1..]| ensures ticks[1..][i].dt >= 0.0 {
          assert ticks[1..][i] == ticks[i + 1];
        }
      }
      AnimateInvariant(b, ticks[1..]);
      if |ticks| > 1 {
        assert ticks[1..][|ticks[1..]| - 1] == ticks[|ticks| - 1];
      }
    }
  }
}

=== FILE: cards.dfy ===
/**
 * The card record and the two list operations the game performs on
 * sequences of cards: `list.remove` (first field-equal element) and the
 * stack move of a draw (pop from the end of the deck, append to the hand).
 */
module Cards {
  import opened Wrappers

  /** A plain data record: two cards are equal exactly when all four fields are. */
  datatype Card = Card(id: int, attack: int, defense: int, occupied: bool)

  /** The cards a side still owns, wherever they lie: deck and hand together. */
  function PoolOf(deck: seq<Card>, hand: seq<Card>): multiset<Card>
  {
    multiset(deck) + multiset(hand)
  }

  /** Position of the first card equal to `c`: the one `list.remove` and `list.index` find. */
  ghost function FirstIndex(s: seq<Card>, c: Card): (i: nat)
    requires c in s
    ensures i < |s| && s[i] == c
    ensures forall j :: 0 <= j < i ==> s[j] != c
  {
    if s[0] == c then 0 else 1 + FirstIndex(s[1..], c)
  }

  /**
   * `s.remove(c)`: drops the first card equal to `c`. `None` stands for the
   * `ValueError` Python raises when no card is equal to `c`.
   */
  function RemoveFirst(s: seq<Card>, c: Card): (r: Option<seq<Card>>)
    ensures r.None? <==> c !in s
    ensures r.Some? ==> r.value == s[..FirstIndex(s, c)] + s[FirstIndex(s, c) + 1..]
    ensures r.Some? ==> multiset(r.value) == multiset(s) - multiset{c}
  {
    if |s| == 0 then None
    else if s[0] == c then
      assert s == [s[0]] + s[1..];
      Some(s[1..])
    else
      match RemoveFirst(s[1..], c)
      case None => None
      case Some(t) =>
        var i := FirstIndex(s[1..], c);
        assert s[..i + 1] + s[i + 2..] == [s[0]] + (s[1..][..i] + s[1..][i + 1..]);
        RemoveUnderHead(s, t, c);
        Some([s[0]] + t)
  }

  /** Removing a card other than the head commutes with putting the head back. */
  lemma RemoveUnderHead(s: seq<Card>, t: seq<Card>, c: Card)
    requires |s| > 0 && s[0] != c
    requires multiset(t) == multiset(s[1..]) - multiset{c}
    ensures multiset([s[0]] + t) == multiset(s) - multiset{c}
  {
    assert s == [s[0]] + s[1..];
  }

  /** A deck and a hand after one card has moved from the top of the deck to the hand. */
  datatype Moved = Moved(deck: seq<Card>, hand: seq<Card>, card: Card)

  /** `card = deck.pop(); hand.append(card)`. */
  function MoveTop(deck: seq<Card>, hand: seq<Card>): (m: Moved)
    requires |deck| > 0
    ensures m.deck + [m.card] == deck
    ensures m.hand == hand + [m.card]
  {
    var top := deck[|deck| - 1];
    assert deck == deck[..|deck| - 1] + [top];
    Moved(deck[..|deck| - 1], hand + [top], top)
  }

  /** Moving the top card neither creates nor loses a card. */
  lemma MoveTopKeepsPool(deck: seq<Card>, hand: seq<Card>)
    requires |deck| > 0
    ensures PoolOf(MoveTop(deck, hand).deck, MoveTop(deck, hand).hand) == PoolOf(deck, hand)
  {
    var m := MoveTop(deck, hand);
    assert multiset(deck) == multiset(m.deck) + multiset{m.card};
  }
}

=== FILE: enums.dfy ===
/** The screens the application switches between (`StateEnum`, an `IntEnum` numbered from 0). */
module Enums {

  datatype StateEnum = NoState | Menu | Battle | Win | Lose | Stale
}

=== FILE: fusion_table.dfy ===
/**
 * The fusion table: two input slots and a result slot laid out in a row
 * across the middle of the screen, and which cards its render pass draws.
 */
module FusionTables {
  import opened Wrappers
  import opened Cards
  import opened Geometry

  /** Horizontal gap between neighbouring slots. */
  const SlotGap: real := 60.0

  datatype Slot = Lhs | Rhs | Result

  datatype FusionTable = FusionTable(
    lhs: Option<Card>,
    rhs: Option<Card>,
    result: Option<Card>,
    lhsRect: Rect,
    rhsRect: Rect,
    resultRect: Rect)

  /**
   * `FusionTable()`: all three slots empty; the input slots and the result
   * slot are centred on the screen's middle row, the right-hand input slot
   * at the screen's centre and the others one card width plus the gap away.
   */
  function New(screen: Vec2, cardSize: Vec2): (t: FusionTable)
    ensures t.lhs.None? && t.rhs.None? && t.result.None?
    ensures t.rhsRect.Center() == Vec2(screen.x / 2.0, screen.y / 2.0)
    ensures t.lhsRect.Center().y == t.rhsRect.Center().y == t.resultRect.Center().y
    ensures t.rhsRect.Center().x - t.lhsRect.Center().x == cardSize.x + SlotGap
    ensures t.resultRect.Center().x - t.rhsRect.Center().x == cardSize.x + SlotGap
    ensures cardSize.x >= 0.0 ==> t.lhsRect.x < t.rhsRect.x < t.resultRect.x
  {
    var mid := Vec2(screen.x / 2.0, screen.y / 2.0);
    FusionTable(None, None, None,
      CenteredAt(Vec2(mid.x - cardSize.x - SlotGap, mid.y), cardSize),
      CenteredAt(mid, cardSize),
      CenteredAt(Vec2(mid.x + cardSize.x + SlotGap, mid.y), cardSize))
  }

  /** What `render` draws: a slot's background, or a card in a slot. */
  datatype TableDraw = Background(slot: Slot) | CardIn(slot: Slot, card: Card)

  /**
   * `render`: the three slot backgrounds, then each input card whose slot is
   * filled, then the result card, only when both input slots are filled.
   * The source dereferences the result in that case without a check, so a
   * result must be present then.
   */
  function Render(t: FusionTable): (r: seq<TableDraw>)
    requires t.lhs.Some? && t.rhs.Some? ==> t.result.Some?
    ensures |r| >= 3 && r[..3] == [Background(Lhs), Background(Rhs), Background(Result)]
    ensures forall c :: CardIn(Lhs, c) in r <==> t.lhs == Some(c)
    ensures forall c :: CardIn(Rhs, c) in r <==> t.rhs == Some(c)
    ensures forall c :: CardIn(Result, c) in r <==> t.lhs.Some? && t.rhs.Some? && t.result == Some(c)
    ensures |r| == 3 + (if t.lhs.Some? then 1 else 0) + (if t.rhs.Some? then 1 else 0)
                     + (if t.lhs.Some? && t.rhs.Some? then 1 else 0)
  {
    var backgrounds := [Background(Lhs), Background(Rhs), Background(Result)];
    var left := if t.lhs.Some? then [CardIn(Lhs, t.lhs.value)] else [];
    var right := if t.rhs.Some? then [CardIn(Rhs, t.rhs.value)] else [];
    if t.lhs.None? || t.rhs.None? then backgrounds + left + right
    else backgrounds + left + right + [CardIn(Result, t.result.value)]
  }
}

=== FILE: geometry.dfy ===
/** Points and axis-aligned rectangles, as the renderer's `Vec2` and `Rect` hold them. */
module Geometry {

  datatype Vec2 = Vec2(x: real, y: real)
  {
    function Plus(o: Vec2): Vec2 { Vec2(x + o.x, y + o.y) }

    function Scaled(k: real): Vec2 { Vec2(k * x, k * y) }
  }

  /** A rectangle by its top-left corner and its size. */
  datatype Rect = Rect(x: real, y: real, w: real, h: real)
  {
    function Center(): Vec2 { Vec2(x + w / 2.0, y + h / 2.0) }
  }

  /** The rectangle of the given size whose centre is `c`: a fresh `Rect` after `rect.center = c`. */
  function CenteredAt(c: Vec2, size: Vec2): (r: Rect)
    ensures r.Center() == c
    ensures r.w == size.x && r.h == size.y
  {
    Rect(c.x - size.x / 2.0, c.y - size.y / 2.0, size.x, size.y)
  }

  function Abs(v: real): (r: real)
    ensures r >= 0.0 && (r == v || r == -v)
  {
    if v < 0.0 then -v else v
  }
}

=== FILE: player.dfy ===
/**
 * The human side: health, a hand and a deck used as a stack, the hand's
 * centred left-to-right layout, and which hand cards the hand pass draws.
 */
module Players {
  import opened Cards
  import opened Geometry

  const DefaultHealth := 20

  /** Distance between the bottom of the hand row and the bottom of the screen. */
  const HandMargin: real := 50.0

  datatype Player = Player(health: int, hand: seq<Card>, deck: seq<Card>)

  /** `Player(health)` with an already loaded deck. */
  function New(deck: seq<Card>, health: int): (p: Player)
    ensures p.health == health && p.hand == [] && p.deck == deck
    ensures PoolOf(p.deck, p.hand) == multiset(deck)
  {
    Player(health, [], deck)
  }

  /** `draw_card`: the top of the deck moves to the end of the hand; nothing happens on an empty deck. */
  function Draw(p: Player): (r: Player)
    ensures r.health == p.health
    ensures |p.deck| == 0 ==> r == p
    ensures |p.deck| > 0 ==> r.deck + [p.deck[|p.deck| - 1]] == p.deck && r.hand == p.hand + [p.deck[|p.deck| - 1]]
  {
    if |p.deck| == 0 then p
    else
      var m := MoveTop(p.deck, p.hand);
      p.(deck := m.deck, hand := m.hand)
  }

  /** A draw keeps deck and hand together the same multiset. */
  lemma DrawKeepsPool(p: Player)
    ensures PoolOf(Draw(p).deck, Draw(p).hand) == PoolOf(p.deck, p.hand)
  {
    if |p.deck| > 0 {
      MoveTopKeepsPool(p.deck, p.hand);
    }
  }

  /** `n` successive draws, as the refill loop makes them. */
  function DrawMany(p: Player, n: nat): Player
    decreases n
  {
    if n == 0 then p else DrawMany(Draw(p), n - 1)
  }

  function Reversed(s: seq<Card>): (r: seq<Card>)
    ensures |r| == |s|
  {
    if |s| == 0 then [] else [s[|s| - 1]] + Reversed(s[..|s| - 1])
  }

  function Min(a: int, b: int): int { if a < b then a else b }

  lemma ReversedSnoc(x: seq<Card>, c: Card)
    ensures Reversed(x + [c]) == [c] + Reversed(x)
  {
    assert (x + [c])[..|x + [c]| - 1] == x;
  }

  /** `n` draws take the top `min(n, |deck|)` cards off the deck. */
  lemma {:induction false} DrawManyDeck(p: Player, n: nat)
    ensures DrawMany(p, n).deck == p.deck[..|p.deck| - Min(n, |p.deck|)]
    decreases n
  {
    var m := |p.deck|;
    if n == 0 {
      assert p.deck[..m] == p.deck;
    } else if m == 0 {
      DrawManyDeck(p, n - 1);
    } else {
      DrawManyDeck(Draw(p), n - 1);
    }
  }

  /** `n` draws append those cards to the hand in the order they were popped, top card first. */
  lemma {:induction false} DrawManyHand(p: Player, n: nat)
    ensures DrawMany(p, n).hand == p.hand + Reversed(p.deck[|p.deck| - Min(n, |p.deck|)..])
    decreases n
  {
    var m := |p.deck|;
    if n == 0 {
      assert p.deck[m..] == [];
    } else if m == 0 {
      DrawManyHand(p, n - 1);
    } else {
      var q := Draw(p);
      var k := Min(n, m);
      assert |q.deck| == m - 1;
      assert Min(n - 1, |q.deck|) == k - 1;
      DrawManyHand(q, n - 1);
      assert DrawMany(p, n) == DrawMany(q, n - 1);
      TopSplit(p.deck, p.hand, q.deck, q.hand, k);
    }
  }

  /** The deck bookkeeping of one inductive step of `DrawManyDeck` and `DrawManyHand`. */
  lemma TopSplit(deck: seq<Card>, hand: seq<Card>, deck': seq<Card>, hand': seq<Card>, k: nat)
    requires 0 < k <= |deck|
    requires deck' == deck[..|deck| - 1] && hand' == hand + [deck[|deck| - 1]]
    ensures deck'[..|deck'| - (k - 1)] == deck[..|deck| - k]
    ensures hand' + Reversed(deck'[|deck'| - (k - 1)..]) == hand + Reversed(deck[|deck| - k..])
  {
    var m := |deck|;
    var c := deck[m - 1];
    var mid := deck'[|deck'| - (k - 1)..];
    assert deck[m - k..] == mid + [c];
    ReversedSnoc(mid, c);
  }

  /** Draws never change health, and deck and hand together stay the same multiset. */
  lemma {:induction false} DrawManyKeepsPool(p: Player, n: nat)
    ensures DrawMany(p, n).health == p.health
    ensures PoolOf(DrawMany(p, n).deck, DrawMany(p, n).hand) == PoolOf(p.deck, p.hand)
    decreases n
  {
    if n > 0 {
      DrawKeepsPool(p);
      DrawManyKeepsPool(Draw(p), n - 1);
    }
  }

  /**
   * `after` is `before` once `n` draws have run: the top `min(n, |deck|)`
   * cards have moved to the end of the hand, top card first, the rest of
   * the deck is kept in order, and health and the pool are unchanged.
   */
  predicate Drew(before: Player, after: Player, n: nat)
  {
    var k := Min(n, |before.deck|);
    && after.health == before.health
    && after.deck == before.deck[..|before.deck| - k]
    && after.hand == before.hand + Reversed(before.deck[|before.deck| - k..])
    && PoolOf(after.deck, after.hand) == PoolOf(before.deck, before.hand)
  }

  /** `n` successive draws are exactly such a move. */
  lemma DrawManyDrew(p: Player, n: nat)
    ensures Drew(p, DrawMany(p, n), n)
  {
    DrawManyDeck(p, n);
    DrawManyHand(p, n);
    DrawManyKeepsPool(p, n);
  }

  /** `to_dst(idx)`: the rectangle of hand position `idx` in a row of the whole hand centred on the screen. */
  function ToDst(p: Player, screen: Vec2, cardSize: Vec2, idx: int): (r: Rect)
    ensures r.w == cardSize.x && r.h == cardSize.y
    ensures r.y + cardSize.y + HandMargin == screen.y
  {
    var left := (screen.x - |p.hand| as real * cardSize.x) / 2.0;
    Rect(left + idx as real * cardSize.x, screen.y - cardSize.y - HandMargin, cardSize.x, cardSize.y)
  }

  /** Neighbouring hand positions are exactly one card width apart. */
  lemma HandSpacing(p: Player, screen: Vec2, cardSize: Vec2, idx: int)
    ensures ToDst(p, screen, cardSize, idx + 1).x == ToDst(p, screen, cardSize, idx).x + cardSize.x
    ensures ToDst(p, screen, cardSize, idx + 1).y == ToDst(p, screen, cardSize, idx).y
  {
  }

  /** The row is centred: the gap left of the first card equals the gap right of the last. */
  lemma HandCentred(p: Player, screen: Vec2, cardSize: Vec2)
    requires |p.hand| > 0
    ensures ToDst(p, screen, cardSize, 0).x == screen.x - (ToDst(p, screen, cardSize, |p.hand| - 1).x + cardSize.x)
  {
  }

  /** One hand draw: the card (whose id picks the texture) and where it goes. */
  datatype HandDraw = HandDraw(card: Card, dst: Rect)

  /** The draws `render_hand` makes from hand position `i` on: every card not sitting in a slot, at its own position. */
  function RenderFrom(p: Player, screen: Vec2, cardSize: Vec2, i: nat): (r: seq<HandDraw>)
    requires i <= |p.hand|
    ensures |r| <= |p.hand| - i
    ensures forall j :: i <= j < |p.hand| && !p.hand[j].occupied ==>
              HandDraw(p.hand[j], ToDst(p, screen, cardSize, j)) in r
    ensures forall d :: d in r ==>
              exists j :: i <= j < |p.hand| && !p.hand[j].occupied && d == HandDraw(p.hand[j], ToDst(p, screen, cardSize, j))
    decreases |p.hand| - i
  {
    if i == |p.hand| then []
    else
      var rest := RenderFrom(p, screen, cardSize, i + 1);
      if p.hand[i].occupied then rest
      else [HandDraw(p.hand[i], ToDst(p, screen, cardSize, i))] + rest
  }

  /** `render_hand`. */
  function RenderHand(p: Player, screen: Vec2, cardSize: Vec2): (r: seq<HandDraw>)
    ensures forall j :: 0 <= j < |p.hand| && !p.hand[j].occupied ==>
              HandDraw(p.hand[j], ToDst(p, screen, cardSize, j)) in r
    ensures forall d :: d in r ==>
              exists j :: 0 <= j < |p.hand| && !p.hand[j].occupied && d == HandDraw(p.hand[j], ToDst(p, screen, cardSize, j))
  {
    RenderFrom(p, screen, cardSize, 0)
  }

  /** Distinct hand positions get distinct rectangles when cards have a width. */
  lemma DistinctPositions(p: Player, screen: Vec2, cardSize: Vec2, i: int, j: int)
    requires i != j && cardSize.x != 0.0
    ensures ToDst(p, screen, cardSize, i).x != ToDst(p, screen, cardSize, j).x
  {
    var d := (j - i) as real;
    assert d != 0.0;
    assert j as real * cardSize.x - i as real * cardSize.x == d * cardSize.x;
    assert d * cardSize.x != 0.0;
  }

  /** A card sitting in a slot leaves its hand position empty: nothing is drawn there. */
  lemma OccupiedLeavesGap(p: Player, screen: Vec2, cardSize: Vec2, i: nat)
    requires i < |p.hand| && p.hand[i].occupied && cardSize.x != 0.0
    ensures forall d :: d in RenderHand(p, screen, cardSize) ==> d.dst != ToDst(p, screen, cardSize, i)
  {
    var r := RenderHand(p, screen, cardSize);
    forall d | d in r
      ensures d.dst != ToDst(p, screen, cardSize, i)
    {
      var j :| 0 <= j < |p.hand| && !p.hand[j].occupied && d == HandDraw(p.hand[j], ToDst(p, screen, cardSize, j));
      DistinctPositions(p, screen, cardSize, i, j);
    }
  }
}

=== FILE: sequencer.dfy ===
/**
 * The timeline sequencer: an ordered list of (actions, duration) frames, a
 * clock that an update advances by the frame's elapsed time and clamps at the
 * total duration, and the index of the active frame, whose actions fire when
 * that index changes. Actions are opaque tags chosen by the owner of the
 * timeline; an update reports which frame fired instead of calling anything.
 */
module Sequencers {
  import opened Wrappers

  /** One entry of a timeline: what fires on entering it, and how long it lasts. */
  datatype Frame<A> = Frame(actions: seq<A>, duration: real)

  /** The part fixed at construction: the frames, their total and their start times. */
  datatype Timeline<A> = Timeline(frames: seq<Frame<A>>, total: real, starts: seq<real>)

  /**
   * A timeline and its clock. `index` is the active frame, -1 from
   * construction or reset until the next update, so that update fires.
   */
  datatype Sequencer<A> = Sequencer(line: Timeline<A>, time: real, done: bool, index: int)

  /** The sequencer after one update, and the frame whose actions fired in it. */
  datatype Step<A> = Step(next: Sequencer<A>, fired: Option<nat>)

  /** Sum of the durations, accumulated from 0 left to right as Python's `sum` does. */
  function Sum<A>(fs: seq<Frame<A>>): real
  {
    if |fs| == 0 then 0.0 else Sum(fs[..|fs| - 1]) + fs[|fs| - 1].duration
  }

  predicate NonNegative<A>(fs: seq<Frame<A>>)
  {
    forall i :: 0 <= i < |fs| ==> fs[i].duration >= 0.0
  }

  /** Extending a prefix by one frame adds that frame's duration. */
  lemma SumSnoc<A>(fs: seq<Frame<A>>, i: nat)
    requires i < |fs|
    ensures Sum(fs[..i + 1]) == Sum(fs[..i]) + fs[i].duration
  {
    assert fs[..i + 1][..i] == fs[..i];
  }

  /** The left-to-right sum also splits off its first term. */
  lemma {:induction false} SumCons<A>(f: Frame<A>, fs: seq<Frame<A>>)
    ensures Sum([f] + fs) == f.duration + Sum(fs)
    decreases |fs|
  {
    var l := [f] + fs;
    if |fs| == 0 {
      assert l[..|l| - 1] == [];
    } else {
      assert l[..|l| - 1] == [f] + fs[..|fs| - 1];
      SumCons(f, fs[..|fs| - 1]);
    }
  }

  lemma PrefixSumsShift<A>(fs: seq<Frame<A>>)
    requires |fs| > 0
    ensures forall i :: 1 <= i <= |fs| ==> Sum(fs[..i]) == fs[0].duration + Sum(fs[1..][..i - 1])
  {
    forall i | 1 <= i <= |fs|
      ensures Sum(fs[..i]) == fs[0].duration + Sum(fs[1..][..i - 1])
    {
      assert fs[..i] == [fs[0]] + fs[1..][..i - 1];
      SumCons(fs[0], fs[1..][..i - 1]);
    }
  }

  /**
   * The start times `_compute_starts` lists when its running clock begins at
   * `t`: frame i starts at t plus the durations of the frames before it.
   */
  function StartsFrom<A>(fs: seq<Frame<A>>, t: real): (r: seq<real>)
    ensures |r| == |fs|
    ensures forall i :: 0 <= i < |fs| ==> r[i] == t + Sum(fs[..i])
    decreases |fs|
  {
    if |fs| == 0 then []
    else
      var rest := StartsFrom(fs[1..], t + fs[0].duration);
      PrefixSumsShift(fs);
      [t] + rest
  }

  /** What construction establishes about the fixed part. */
  ghost predicate LineValid<A>(l: Timeline<A>)
  {
    && |l.starts| == |l.frames|
    && (forall i :: 0 <= i < |l.frames| ==> l.starts[i] == Sum(l.frames[..i]))
    && l.total == Sum(l.frames)
  }

  /** `Sequencer(frames)`: clock at 0, not done, no frame active yet. */
  function New<A>(frames: seq<Frame<A>>): (s: Sequencer<A>)
    ensures Valid(s)
    ensures s.line.frames == frames && s.time == 0.0 && !s.done && s.index == -1
    ensures s.line.total == Sum(frames)
    ensures forall i :: 0 <= i < |frames| ==> s.line.starts[i] == Sum(frames[..i])
  {
    Sequencer(Timeline(frames, Sum(frames), StartsFrom(frames, 0.0)), 0.0, false, -1)
  }

  /** Frame `i` spans time `t`: `start_i <= t < start_i + d_i`. */
  predicate Covers<A>(l: Timeline<A>, i: int, t: real)
    requires |l.starts| == |l.frames|
  {
    0 <= i < |l.frames| && l.starts[i] <= t < l.starts[i] + l.frames[i].duration
  }

  /** The linear scan of `_find_frame` from frame `i` on, with its fallback to the last frame. */
  function Scan<A>(l: Timeline<A>, t: real, i: nat): (k: int)
    requires |l.starts| == |l.frames| && i <= |l.frames|
    ensures -1 <= k < |l.frames| && (|l.frames| > 0 ==> k >= 0)
    decreases |l.frames| - i
  {
    if i == |l.frames| then |l.frames| - 1
    else if l.starts[i] <= t < l.starts[i] + l.frames[i].duration then i
    else Scan(l, t, i + 1)
  }

  /** The scan stops at the first spanning frame from `i` on, or falls back to the last frame. */
  lemma {:induction false} ScanFinds<A>(l: Timeline<A>, t: real, i: nat)
    requires |l.starts| == |l.frames| && i <= |l.frames|
    ensures (exists j :: i <= j < |l.frames| && Covers(l, j, t)) ==>
              i <= Scan(l, t, i) && Covers(l, Scan(l, t, i), t)
              && forall j :: i <= j < Scan(l, t, i) ==> !Covers(l, j, t)
    ensures !(exists j :: i <= j < |l.frames| && Covers(l, j, t)) ==> Scan(l, t, i) == |l.frames| - 1
    decreases |l.frames| - i
  {
    if i < |l.frames| && !Covers(l, i, t) {
      ScanFinds(l, t, i + 1);
      if exists j :: i <= j < |l.frames| && Covers(l, j, t) {
        var j :| i <= j < |l.frames| && Covers(l, j, t);
        assert i + 1 <= j;
      }
    }
  }

  /**
   * `_find_frame(t)`: the last frame once `t` reaches the total, otherwise
   * the scan's answer.
   */
  function FindFrame<A>(l: Timeline<A>, t: real): (k: int)
    requires |l.starts| == |l.frames|
    ensures -1 <= k < |l.frames|
    ensures k == -1 <==> |l.frames| == 0
    ensures t >= l.total ==> k == |l.frames| - 1
  {
    if t >= l.total then |l.frames| - 1 else Scan(l, t, 0)
  }

  /**
   * Before the total, the frame found is the first one spanning `t`, and
   * the last frame when none does.
   */
  lemma FindFrameFinds<A>(l: Timeline<A>, t: real)
    requires |l.starts| == |l.frames|
    ensures t < l.total && (exists j :: 0 <= j < |l.frames| && Covers(l, j, t)) ==>
              Covers(l, FindFrame(l, t), t) && forall j :: 0 <= j < FindFrame(l, t) ==> !Covers(l, j, t)
    ensures t < l.total && !(exists j :: 0 <= j < |l.frames| && Covers(l, j, t)) ==>
              FindFrame(l, t) == |l.frames| - 1
  {
    ScanFinds(l, t, 0);
  }

  /**
   * What holds of every sequencer from construction on: the fixed part is
   * as constructed, `done` pins the clock at the total and the last frame,
   * and the index is either the sentinel (clock still at 0 when there are
   * frames) or the frame found for the current time.
   */
  ghost predicate Valid<A>(s: Sequencer<A>)
  {
    && LineValid(s.line)
    && -1 <= s.index < |s.line.frames|
    && (s.done ==> s.time == s.line.total && s.index == |s.line.frames| - 1)
    && (s.index != -1 ==> s.index == FindFrame(s.line, s.time))
    && (s.index == -1 && |s.line.frames| > 0 ==> s.time == 0.0 && !s.done)
  }

  /** `reset()`: clock back to 0, not done, sentinel index. */
  function Reset<A>(s: Sequencer<A>): (r: Sequencer<A>)
    requires Valid(s)
    ensures Valid(r)
    ensures r.line == s.line && r.time == 0.0 && !r.done && r.index == -1
  {
    s.(time := 0.0, done := false, index := -1)
  }

  /**
   * `update()` with the frame's elapsed time `dt`: nothing once done;
   * otherwise the clock advances by `dt`, clamped to the total (which sets
   * `done`), and the frame found for the new time fires if it differs from
   * the active one.
   */
  function Update<A>(s: Sequencer<A>, dt: real): (r: Step<A>)
    requires Valid(s)
    ensures Valid(r.next) && r.next.line == s.line
    ensures s.done ==> r.next == s && r.fired.None?
    ensures !s.done ==> (r.next.done <==> s.time + dt >= s.line.total)
    ensures !s.done && !r.next.done ==> r.next.time == s.time + dt
    ensures r.next.time <= s.line.total || r.next.time == s.time
    ensures r.fired.Some? <==> r.next.index != s.index
    ensures r.fired.Some? ==> r.fired.value == r.next.index
  {
    if s.done then Step(s, None)
    else
      var t := s.time + dt;
      var finished := t >= s.line.total;
      var now := if finished then s.line.total else t;
      var k := FindFrame(s.line, now);
      var next := s.(time := now, done := finished, index := k);
      if k != s.index then Step(next, Some(k)) else Step(next, None)
  }

  /** The actions of the frame a step fired, in registration order. */
  function FiredActions<A>(st: Step<A>): (acts: seq<A>)
    requires Valid(st.next)
    requires st.fired.Some? ==> st.fired.value == st.next.index
    ensures st.fired.None? ==> acts == []
  {
    match st.fired
    case None => []
    case Some(k) => st.next.line.frames[k].actions
  }
}

=== FILE: sequencer_props.dfy ===
/**
 * What the sequencer guarantees over time: frames tile the timeline, the
 * active index never moves backwards, each frame fires at most once per
 * reset cycle and in order, frames jumped over by one long update never
 * fire, and enough elapsed time always finishes the timeline.
 */
module SequencerProps {
  import opened Wrappers
  import opened Sequencers

  /** The clock lies in [0, total] and no frame has a negative duration. */
  ghost predicate Clocked<A>(s: Sequencer<A>)
  {
    NonNegative(s.line.frames) && 0.0 <= s.time <= s.line.total
  }

  lemma {:induction false} PrefixSumMonotone<A>(fs: seq<Frame<A>>, i: nat, j: nat)
    requires NonNegative(fs) && i <= j <= |fs|
    ensures Sum(fs[..i]) <= Sum(fs[..j])
    decreases j - i
  {
    if i < j {
      PrefixSumMonotone(fs, i, j - 1);
      SumSnoc(fs, j - 1);
    }
  }

  /** A frame ends where the next one starts, and the last one ends at the total. */
  lemma FrameEnd<A>(l: Timeline<A>, i: nat)
    requires LineValid(l) && i < |l.frames|
    ensures i + 1 < |l.frames| ==> l.starts[i + 1] == l.starts[i] + l.frames[i].duration
    ensures i + 1 == |l.frames| ==> l.total == l.starts[i] + l.frames[i].duration
  {
    SumSnoc(l.frames, i);
    assert l.frames[..|l.frames|] == l.frames;
  }

  /** With non-negative durations, a frame ends no later than any later frame starts, nor than the total. */
  lemma EndsBefore<A>(l: Timeline<A>, i: nat, j: nat)
    requires LineValid(l) && NonNegative(l.frames) && i < |l.frames|
    ensures i < j < |l.frames| ==> l.starts[i] + l.frames[i].duration <= l.starts[j]
    ensures l.starts[i] + l.frames[i].duration <= l.total
  {
    SumSnoc(l.frames, i);
    if i < j < |l.frames| {
      PrefixSumMonotone(l.frames, i + 1, j);
    }
    PrefixSumMonotone(l.frames, i + 1, |l.frames|);
    assert l.frames[..|l.frames|] == l.frames;
  }

  /** Every time before the prefix of k frames ends is spanned by one of those k frames. */
  lemma {:induction false} CoverBelow<A>(l: Timeline<A>, t: real, k: nat)
    requires LineValid(l) && k <= |l.frames|
    requires 0.0 <= t < Sum(l.frames[..k])
    ensures exists j :: 0 <= j < k && Covers(l, j, t)
    decreases k
  {
    if k > 0 {
      SumSnoc(l.frames, k - 1);
      if t >= Sum(l.frames[..k - 1]) {
        assert Covers(l, k - 1, t);
      } else {
        CoverBelow(l, t, k - 1);
      }
    }
  }

  /** The frames tile [0, total): every time in it is spanned by some frame. */
  lemma CoverExists<A>(l: Timeline<A>, t: real)
    requires LineValid(l) && 0.0 <= t < l.total
    ensures exists j :: 0 <= j < |l.frames| && Covers(l, j, t)
  {
    assert l.frames[..|l.frames|] == l.frames;
    CoverBelow(l, t, |l.frames|);
  }

  /** With non-negative durations no two frames span the same time. */
  lemma CoverUnique<A>(l: Timeline<A>, i: int, j: int, t: real)
    requires LineValid(l) && NonNegative(l.frames)
    requires Covers(l, i, t) && Covers(l, j, t)
    ensures i == j
  {
    if i < j {
      EndsBefore(l, i, j);
    } else if j < i {
      EndsBefore(l, j, i);
    }
  }

  /** Before the total, the frame found is the unique one spanning the time. */
  lemma FindFrameSpans<A>(l: Timeline<A>, t: real)
    requires LineValid(l) && NonNegative(l.frames) && 0.0 <= t < l.total
    ensures Covers(l, FindFrame(l, t), t)
    ensures forall j :: Covers(l, j, t) ==> j == FindFrame(l, t)
  {
    CoverExists(l, t);
    FindFrameFinds(l, t);
    forall j | Covers(l, j, t)
      ensures j == FindFrame(l, t)
    {
      CoverUnique(l, j, FindFrame(l, t), t);
    }
  }

  /** Later times never map to earlier frames. */
  lemma FindFrameMonotone<A>(l: Timeline<A>, t1: real, t2: real)
    requires LineValid(l) && NonNegative(l.frames) && 0.0 <= t1 <= t2
    ensures FindFrame(l, t1) <= FindFrame(l, t2)
  {
    if t2 < l.total {
      FindFrameSpans(l, t1);
      FindFrameSpans(l, t2);
      var k1, k2 := FindFrame(l, t1), FindFrame(l, t2);
      if k2 < k1 {
        EndsBefore(l, k2, k1);
      }
    }
  }

  /** Construction leaves the clock in range when no duration is negative. */
  lemma NewIsClocked<A>(frames: seq<Frame<A>>)
    requires NonNegative(frames)
    ensures Clocked(New(frames))
  {
    var l := New(frames).line;
    PrefixSumMonotone(frames, 0, |frames|);
    assert frames[..|frames|] == frames;
  }

  /** A forward update keeps the clock in range; time never exceeds the total. */
  lemma UpdateKeepsClock<A>(s: Sequencer<A>, dt: real)
    requires Valid(s) && Clocked(s) && dt >= 0.0
    ensures Clocked(Update(s, dt).next)
    ensures s.time <= Update(s, dt).next.time
  {
  }

  /**
   * A forward update never moves the active index backwards, and a frame it
   * fires comes after the previously active one.
   */
  lemma IndexNeverDecreases<A>(s: Sequencer<A>, dt: real)
    requires Valid(s) && Clocked(s) && dt >= 0.0
    ensures Update(s, dt).next.index >= s.index
    ensures Update(s, dt).fired.Some? ==> Update(s, dt).fired.value > s.index
  {
    var r := Update(s, dt);
    if !s.done && s.index != -1 {
      FindFrameMonotone(s.line, s.time, r.next.time);
    }
  }

  /**
   * Only the frame spanning the new time fires, or the last frame on the
   * update that finishes the timeline.
   */
  lemma FiresSpanningFrame<A>(s: Sequencer<A>, dt: real)
    requires Valid(s) && Clocked(s) && dt >= 0.0
    requires Update(s, dt).fired.Some?
    ensures var r := Update(s, dt);
      Covers(s.line, r.fired.value, r.next.time)
      || (r.fired.value == |s.line.frames| - 1 && r.next.done)
  {
    var r := Update(s, dt);
    if !r.next.done {
      FindFrameSpans(s.line, r.next.time);
    }
  }

  /** A zero-length frame fires only as the last frame, on the update that sets `done`. */
  lemma ZeroFrameFiresOnlyLast<A>(s: Sequencer<A>, dt: real)
    requires Valid(s) && Clocked(s) && dt >= 0.0
    requires Update(s, dt).fired.Some?
    requires s.line.frames[Update(s, dt).fired.value].duration == 0.0
    ensures Update(s, dt).fired.value == |s.line.frames| - 1
    ensures Update(s, dt).next.done
  {
    FiresSpanningFrame(s, dt);
  }

  /** With no frames, the first forward update finishes the timeline and fires nothing. */
  lemma EmptyTimelineFiresNothing<A>(s: Sequencer<A>, dt: real)
    requires Valid(s) && Clocked(s) && dt >= 0.0 && |s.line.frames| == 0
    ensures Update(s, dt).next.done && Update(s, dt).fired.None?
  {
  }

  /** After a reset the next update fires, even with no elapsed time. */
  lemma ResetRefires<A>(s: Sequencer<A>, dt: real)
    requires Valid(s) && |s.line.frames| > 0
    ensures Update(Reset(s), dt).fired.Some?
    ensures NonNegative(s.line.frames) && dt == 0.0 && s.line.frames[0].duration > 0.0 ==>
              Update(Reset(s), dt).fired == Some(0)
  {
    var l := s.line;
    if NonNegative(l.frames) && dt == 0.0 && l.frames[0].duration > 0.0 {
      EndsBefore(l, 0, 0);
      assert Covers(l, 0, 0.0);
      FindFrameSpans(l, 0.0);
    }
  }

  /** The game loop driving one sequencer: an update per elapsed time, collecting the fired frames. */
  function Run<A>(s: Sequencer<A>, dts: seq<real>): (r: (Sequencer<A>, seq<nat>))
    requires Valid(s)
    ensures Valid(r.0) && r.0.line == s.line
    decreases |dts|
  {
    if |dts| == 0 then (s, [])
    else
      var st := Update(s, dts[0]);
      var rest := Run(st.next, dts[1..]);
      (rest.0, (if st.fired.Some? then [st.fired.value] else []) + rest.1)
  }

  ghost predicate Forward(dts: seq<real>)
  {
    forall i :: 0 <= i < |dts| ==> dts[i] >= 0.0
  }

  ghost predicate StrictlyIncreasing(xs: seq<nat>)
  {
    forall i, j :: 0 <= i < j < |xs| ==> xs[i] < xs[j]
  }

  /**
   * Between resets, frames fire in strictly increasing index order, so each
   * at most once, and only frames after the one active at the start.
   */
  lemma {:induction false} RunFiresIncreasing<A>(s: Sequencer<A>, dts: seq<real>)
    requires Valid(s) && Clocked(s) && Forward(dts)
    ensures StrictlyIncreasing(Run(s, dts).1)
    ensures forall k :: 0 <= k < |Run(s, dts).1| ==> s.index < Run(s, dts).1[k] < |s.line.frames|
    ensures s.index <= Run(s, dts).0.index
    ensures Clocked(Run(s, dts).0)
    decreases |dts|
  {
    if |dts| > 0 {
      var st := Update(s, dts[0]);
      IndexNeverDecreases(s, dts[0]);
      UpdateKeepsClock(s, dts[0]);
      RunFiresIncreasing(st.next, dts[1..]);
    }
  }

  /**
   * Frames jumped over by a single long update never fire afterwards in the
   * same cycle: if an update fires frame k, no frame before k fires later.
   */
  lemma SkippedFramesNeverFire<A>(s: Sequencer<A>, dt: real, later: seq<real>, j: nat)
    requires Valid(s) && Clocked(s) && dt >= 0.0 && Forward(later)
    requires Update(s, dt).fired.Some? && s.index < j < Update(s, dt).fired.value
    ensures j !in Run(Update(s, dt).next, later).1
  {
    UpdateKeepsClock(s, dt);
    RunFiresIncreasing(Update(s, dt).next, later);
  }

  /** Once done, further updates change nothing and fire nothing. */
  lemma {:induction false} RunWhenDone<A>(s: Sequencer<A>, dts: seq<real>)
    requires Valid(s) && s.done
    ensures Run(s, dts) == (s, [])
    decreases |dts|
  {
    if |dts| > 0 {
      assert Update(s, dts[0]) == Step(s, None);
      RunWhenDone(s, dts[1..]);
      assert Run(s, dts).1 == [] + Run(s, dts[1..]).1;
      assert Run(s, dts).0 == Run(s, dts[1..]).0;
      assert Run(s, dts).1 == [];
    }
  }

  function Total(dts: seq<real>): real
  {
    if |dts| == 0 then 0.0 else dts[0] + Total(dts[1..])
  }

  /**
   * Updates whose elapsed times add up to the remaining time (at least one
   * update) finish the timeline and leave the last frame active.
   */
  lemma {:induction false} RunReachesEnd<A>(s: Sequencer<A>, dts: seq<real>)
    requires Valid(s) && Clocked(s) && Forward(dts)
    requires |dts| > 0 && Total(dts) >= s.line.total - s.time
    ensures Run(s, dts).0.done
    ensures Run(s, dts).0.index == |s.line.frames| - 1
    decreases |dts|
  {
    var st := Update(s, dts[0]);
    if st.next.done {
      RunWhenDone(st.next, dts[1..]);
    } else {
      UpdateKeepsClock(s, dts[0]);
      assert Forward(dts[1..]);
      RunReachesEnd(st.next, dts[1..]);
    }
  }

  /** `dt` is shorter than every frame but the last. */
  ghost predicate ShortStep<A>(l: Timeline<A>, dt: real)
  {
    0.0 <= dt && forall j :: 0 <= j < |l.frames| - 1 ==> dt < l.frames[j].duration
  }

  /** A time before frame m starts is found in a frame before m. */
  lemma FoundBefore<A>(l: Timeline<A>, t: real, m: nat)
    requires LineValid(l) && NonNegative(l.frames) && m < |l.frames|
    requires 0.0 <= t < l.starts[m]
    ensures FindFrame(l, t) < m
  {
    EndsBefore(l, m, m);
    FindFrameSpans(l, t);
    var k := FindFrame(l, t);
    if k >= m {
      PrefixSumMonotone(l.frames, m, k);
    }
  }

  /** An update shorter than every frame but the last advances the index by at most one. */
  lemma ShortStepAdvancesByOne<A>(s: Sequencer<A>, dt: real)
    requires Valid(s) && Clocked(s) && ShortStep(s.line, dt)
    ensures Update(s, dt).next.index <= s.index + 1
  {
    var l := s.line;
    var n := |l.frames|;
    var now := Update(s, dt).next.time;
    if !s.done && n > 1 {
      var i := s.index;
      if i == -1 {
        FrameEnd(l, 0);
        assert now < l.starts[1];
        FoundBefore(l, now, 1);
      } else if i + 2 < n {
        assert s.time < l.total;
        FindFrameSpans(l, s.time);
        FrameEnd(l, i);
        FrameEnd(l, i + 1);
        assert now < l.starts[i + 2];
        FoundBefore(l, now, i + 2);
      }
    }
  }

  /** Ascending run of indices `lo, lo + 1, ..., hi - 1`. */
  function Range(lo: nat, hi: int): (r: seq<nat>)
    ensures |r| == if lo < hi then hi - lo else 0
    ensures forall k :: 0 <= k < |r| ==> r[k] == lo + k
    decreases hi - lo
  {
    if lo >= hi then [] else [lo] + Range(lo + 1, hi)
  }

  /** Every elapsed time of a run is a short step. */
  ghost predicate AllShort<A>(l: Timeline<A>, dts: seq<real>)
  {
    forall i :: 0 <= i < |dts| ==> ShortStep(l, dts[i])
  }

  lemma AllShortTail<A>(l: Timeline<A>, dts: seq<real>)
    requires |dts| > 0 && AllShort(l, dts)
    ensures ShortStep(l, dts[0]) && AllShort(l, dts[1..]) && Forward(dts[1..])
  {
    assert ShortStep(l, dts[0]);
    forall i | 0 <= i < |dts[1..]|
      ensures ShortStep(l, dts[1..][i]) && dts[1..][i] >= 0.0
    {
      assert dts[1..][i] == dts[i + 1];
      assert ShortStep(l, dts[i + 1]);
    }
  }

  /** One step of a consecutive run: what the step fires, prefixed to a consecutive rest, stays consecutive. */
  lemma ConsecutiveStep(lo: nat, fired: Option<nat>, mid: int, fin: int, rest: seq<nat>)
    requires fired.Some? ==> fired.value == lo && mid == lo
    requires fired.None? ==> mid + 1 == lo
    requires mid <= fin && rest == Range(mid + 1, fin + 1)
    ensures (if fired.Some? then [fired.value] else []) + rest == Range(lo, fin + 1)
  {
    if fired.Some? {
      assert Range(lo, fin + 1) == [lo] + Range(lo + 1, fin + 1);
    }
  }

  /**
   * With every update shorter than every frame but the last, no frame is
   * skipped: the frames fired are exactly those after the initially active
   * one, up to the finally active one, in order.
   */
  lemma {:induction false} RunFiresConsecutively<A>(s: Sequencer<A>, dts: seq<real>)
    requires Valid(s) && Clocked(s) && AllShort(s.line, dts)
    ensures Run(s, dts).1 == Range(s.index + 1, Run(s, dts).0.index + 1)
    decreases |dts|
  {
    if |dts| > 0 {
      var st := Update(s, dts[0]);
      var rest := Run(st.next, dts[1..]);
      AllShortTail(s.line, dts);
      UpdateKeepsClock(s, dts[0]);
      IndexNeverDecreases(s, dts[0]);
      ShortStepAdvancesByOne(s, dts[0]);
      RunFiresConsecutively(st.next, dts[1..]);
      RunFiresIncreasing(st.next, dts[1..]);
      ConsecutiveStep(s.index + 1, st.fired, st.next.index, rest.0.index, rest.1);
    }
  }
}

=== FILE: wrappers.dfy ===
/** Optional values and fallible results, shared by every module of the model. */
module Wrappers {

  /** A value that may be missing: the model's reading of Python's `None`. */
  datatype Option<+T> = None | Some(value: T)

  /** The outcome of an operation that can raise: `Failure` stands for the exception. */
  datatype Result<+R, +E> = Success(value: R) | Failure(error: E)
}
